=== FILE: README.md ===
# Gacha simulator — a Dafny model of the pull, the admin writes and the pages around them

The gacha simulator is a Django REST backend with a Next.js frontend. Players draw
("pull") characters from gachas. A gacha has a rarity-rate table and a pool of
characters, some of them flagged as pickup. Administrators create and edit gachas
and the character catalog. Every pull credits the player's holdings and appends
one history row per character drawn.

The model covers the following parts of the system, as immutable values and
pure functions:

- `Pull` is the pull action of the gacha view set:
  - request checks, in the order the view makes them;
  - a two-stage weighted draw (rarity by rate, then a character of that rarity,
    where a pickup weighs three times a regular entry);
  - the all-or-nothing commit of holdings and history.
- `Selection` is cumulative-weight selection as `random.choices` performs it.
  The random number is an input.
- `Rates` reads the stored rate table. Rates are fixed-point ten-thousandths
  (`Decimal` models the `"0.0100"` strings and their reading).
- `Holdings` is the holdings table with its (user, character) key and the
  get-or-create-then-increment update.
- `Serializers` covers the holdings serializer create (increment) and update
  (overwrite), and the gacha serializer create and update. Those store the rate
  table and rewrite the pool row by row.
- `Access` covers the permission tables of the character and gacha view sets,
  the per-user querysets of the holdings and history view sets, and the
  history view set's refusal of writes.
- `Models` holds the entities, their uniqueness keys, the rarity domain 1..5,
  and the default orderings.
- `PoolEditor` is the gacha creation page's character checkboxes:
  - the selection-change handler;
  - the status query;
  - the submit-time filter.
- `GachaForm` is the same page's rate table: the initial rows, the field rules,
  the sum check and the percent-to-fraction conversion.
- `GachaPage` is the player's gacha page: the two pull buttons, the result
  message, and the info dialog's orderings of rates and pool.
- `Helpers` covers the star labels `getRarityStars` and `getRarityDisplayName`.

Clock readings, random draws, authentication and database failures are
parameters:
- `now` is the clock reading;
- `rolls` are the random draws;
- `Requester` stands for the authenticated user;
- `writesFail` says whether the database raises inside the pull transaction.

The model keeps these behaviours of the code as written:
- **Pickup weight.** Inside a rarity a pickup entry has weight 3 and a regular
  one 1 (`backend/api/gacha/views.py:130-135`), however many pickup entries
  there are.
- **Rate total.** Nothing rejects a rate table whose total is not 1:
  - the pull logs a warning when the total lies outside [0.999, 1.001], and
    draws anyway (`Pull.RateWarningIff`, `Pull.PullSucceedsIff`);
  - the only exact check is the creation form's 100% check on the client.
- **Unchecked definitions.** Nothing checks a gacha definition before use:
  - a drawn rarity with no pool character is found during the draw and answers
    500 (`NoEligibleCharacter`);
  - a rate table whose rates total zero, or whose items lack `rarity`, makes the
    transaction raise and also answers 500 (`PullFailed`). The zero total
    raises on Python 3.9 or later, which the model assumes; before 3.9
    `random.choices` returned the last item instead.
- **Partial pool writes.** The gacha serializer's writes run outside any
  transaction, so a failing pool entry leaves the rows written before it in
  place (`Serializers.WriteEntriesWritten`, `Serializers.WriteEntriesFirstError`). The
  pull, by contrast, is atomic.
- **`pull_count`.** It must be a positive Python `int`. A JSON `true` passes and
  counts as 1, because a bool is an int.
- **Pool ordering.** The pool model's comment says "rarity descending", but its
  ordering key sorts rarity ascending (`backend/api/gacha/models.py:84`). The
  model uses the key as written, and the draw reads the pool in that order
  (`Models.OrderedPool`). The order does not affect which rarity is drawn.

Rates are exact fixed-point numbers throughout. The form's percent field has a
step of 0.01, so a row is modelled as a whole number of hundredths of a percent.
Then `parseFloat(rate) / 100` rounded by `toFixed(4)` is exactly that number of
ten-thousandths. The form's 0.0001 tolerance is below the input resolution, so
the sum check amounts to an exact 100%.

## Model

| member | source | states |
|---|---|---|
| Pull.PullCount | backend/api/gacha/views.py:52-58 | an absent `pull_count` means 1, a positive int or `true` is accepted as that count, and anything else is refused; an accepted count is positive |
| Pull.StatusCode | backend/api/gacha/views.py:56-170 | request problems answer 400, and only a missing tier character or a failure inside the transaction answers 500 |
| Pull.WindowError | backend/api/gacha/views.py:61-67 | a pull is inside the window exactly when no set start date is later and no set end date is earlier than now; both bounds are inclusive and a null bound imposes nothing |
| Pull.Eligible | backend/api/gacha/views.py:115-118 | the candidates are exactly the pool entries whose character has the drawn rarity |
| Pull.Weights | backend/api/gacha/views.py:128-135 | each candidate's weight is 3 when it is a pickup and 1 otherwise, so the total is at least the number of candidates |
| Pull.PickupWeighting | backend/api/gacha/views.py:130-142 | a pickup entry is selected by exactly three times as many character rolls as a regular entry, whatever the number of pickups |
| Pull.DrawOne | backend/api/gacha/views.py:102-143 | one draw succeeds exactly when the pool has a character of the rarity the rarity roll selects, and otherwise fails with that rarity; on success it yields the entry of that rarity, in pool order, whose cumulative-weight interval (3 for a pickup, 1 otherwise) holds the character roll |
| Pull.Collect | backend/api/gacha/views.py:101-143 | the loop succeeds exactly when every iteration does, yielding their values in order |
| Pull.CollectFirstError | backend/api/gacha/views.py:101-143 | a failed loop reports the error of its first failing iteration, every earlier iteration having succeeded |
| Pull.DrawOneOkIff | backend/api/gacha/views.py:102-118 | one draw finds a character exactly when the pool holds a character of the rarity the roll selects from the rate table |
| Pull.DrawsOkIff | backend/api/gacha/views.py:101-143 | the draw loop completes exactly when each of the first `n` rolls selects a rarity the pool stocks |
| Pull.CoveredSameMembers | backend/api/gacha/views.py:115-118 | whether one roll finds a character depends only on which entries the pool holds |
| Pull.DrawOneRows | backend/api/gacha/views.py:102-125 | a draw over the pool in its stored order succeeds exactly when its roll is covered by the stored rows, and otherwise fails naming the rarity the roll selects |
| Pull.DrawsFirstError | backend/api/gacha/views.py:101-125 | a failed draw loop fails with the rarity of its first roll that the pool does not stock, every earlier roll being stocked |
| Pull.CoversSameMembers | backend/api/gacha/views.py:115-118 | whether every roll finds a character depends only on which entries the pool holds, not on their order |
| Pull.DrawsSound | backend/api/gacha/views.py:92-143 | a successful loop over the pool in its stored order yields `n` characters, the i-th being what roll i draws: a pool character of the rarity that roll selects from the rate table, and the entry its character roll selects within that rarity |
| Pull.DrawOneSound | backend/api/gacha/views.py:92-143 | a successful draw over the pool in its stored order yields what its roll draws, stated against the stored rows |
| Pull.CharacterIds | backend/api/gacha/views.py:146-157 | the ids credited are the pulled characters' ids, in order |
| Pull.CommitEffect | backend/api/gacha/views.py:146-165 | the commit keeps the earlier history and appends one row per pulled character in draw order, adds to each holding exactly the number of times its character was pulled and nothing to other users', and keeps the holdings key unique |
| Pull.Guard | backend/api/gacha/views.py:52-95 | the checks fire in source order (count, window, missing rates, unreadable rates, empty pool), each naming its own error, and all pass exactly when the count is valid, the window open, the rates present and readable, and the pool non-empty |
| Pull.PullIsDraw | backend/api/gacha/views.py:50-99 | once every guard passes, the pull is the transaction run on the pool in its default order |
| Pull.Pull | backend/api/gacha/views.py:50-177 | a failing guard is the answer, and every rejection leaves holdings and history untouched; after the guards a failure answers 500, being either the exception inside the transaction or the rarity of the first roll whose rarity the pool does not stock; the tolerance only warns; a success returns `pull_count` characters, the i-th being what roll i draws from the pool in its stored order (rarity by rate, then the entry by pickup weight), and leaves the history extended by one row per character in draw order and each holding raised by its character's count |
| Pull.DrawSucceedsIff | backend/api/gacha/views.py:99-170 | the transaction succeeds exactly when the rate table is drawable, every roll's rarity has a pool character, and the writes do not fail |
| Pull.PullSucceedsIff | backend/api/gacha/views.py:50-177 | a pull succeeds exactly when the count is valid, the window is open, the rates are present and drawable, the pool is non-empty, every drawn rarity is stocked, and the writes do not fail |
| Pull.RateWarningIff | backend/api/gacha/views.py:75-89 | the total warning is raised exactly when the earlier guards pass and the readable rates total outside [0.999, 1.001] |
| Pull.Draw | backend/api/gacha/views.py:92-170 | inside the transaction a missing `rarity` key or a zero total fails the whole pull and a draw failure or a write failure rolls everything back; a failure is either that exception or the rarity of the first roll the pool does not stock; a success yields, roll by roll, what each roll draws from the pool in its stored order, and commits exactly those characters |
| Selection.Pick | backend/api/gacha/views.py:107-111 | the index chosen for a random value below the total is the one whose cumulative interval contains it |
| Selection.WinnerUnique | backend/api/gacha/views.py:107-111 | the cumulative intervals are disjoint, so no random value selects two indices |
| Selection.PickIsWinner | backend/api/gacha/views.py:107-111 | an index is chosen exactly when its interval holds the random value |
| Selection.ZeroWeightNeverPicked | backend/api/gacha/views.py:107-111 | an item of weight zero is never chosen |
| Selection.PickCount | backend/api/gacha/views.py:138-142 | the number of random values that select an index equals that index's weight |
| Selection.Choices | backend/api/gacha/views.py:138-142 | the cumulative-sum search over the weights returns the same index as the reference definition |
| Selection.Interval | backend/api/gacha/views.py:107-111 | an interval holds exactly the values from its lower bound up to, not including, its upper bound, and has that many |
| Rates.RateValues | backend/api/gacha/views.py:76-84 | the rates are read exactly when every item has a `rate` that parses as a decimal, giving one value per item; otherwise the table is malformed |
| Rates.RarityKeys | backend/api/gacha/views.py:103 | the rarity population is read exactly when every item has a `rarity` key, giving one key per item in order |
| Rates.DrawnRarity | backend/api/gacha/views.py:103-111 | a drawn rarity is the key of an item whose rate is positive |
| Decimal.FixedRoundTrip | frontend/app/main/management/gacha/add/page.tsx:157 | a value written with four decimals reads back as the same value |
| Decimal.IntToStringRoundTrip | frontend/src/utils/helpers.ts:8 | a number's decimal numeral reads back as the number |
| Decimal.IntToString | frontend/src/utils/helpers.ts:8 | a numeral is non-empty and starts with a minus sign exactly when the number is negative |
| Holdings.FindHolding | backend/api/gacha/views.py:148-152 | the lookup by (user, character) finds the first row with that key, or reports that none exists |
| Holdings.AddCopies | backend/api/gacha/serializers.py:142-151 | get-or-create-then-increment adds exactly `q` to the one key and nothing to any other, creates a row only when none exists, and keeps the key unique |
| Holdings.CreditAll | backend/api/gacha/views.py:146-157 | crediting a list of characters adds to each holding the number of times its character occurs, and keeps the key unique |
| Models.NameOrder | backend/api/gacha/models.py:44 | the name order is total, transitive and antisymmetric |
| Models.CharacterOrder | backend/api/gacha/models.py:44 | the catalog order (rarity descending, then name) is a total preorder that ties only characters of the same rarity and name |
| Models.PoolOrder | backend/api/gacha/models.py:84 | the pool order (rarity ascending, pickup first, then name) is a total preorder that ties only entries that agree on all three |
| Models.OrderedPool | backend/api/gacha/models.py:84 | the pool as read is a permutation of the stored rows, sorted by the pool ordering |
| Serializers.CreateHolding | backend/api/gacha/serializers.py:133-151 | a missing `character_id` raises and an unknown one is refused; otherwise the user's quantity grows by the supplied amount (default 1), a new row is appended only when none existed, and nothing else changes |
| Serializers.UpdateHolding | backend/api/gacha/serializers.py:153-158 | the row's quantity becomes the supplied one, or stays; its key and every other row are unchanged |
| Serializers.UpdateHoldingIdempotent | backend/api/gacha/serializers.py:153-158 | repeating the same update changes nothing more |
| Serializers.PoolOfMembers | backend/api/gacha/serializers.py:96 | a gacha's pool holds exactly the stored rows of that gacha |
| Serializers.WriteEntries | backend/api/gacha/serializers.py:97-115 | the loop writes at most one row per entry and no error is reported exactly when every entry was written |
| Serializers.WriteEntriesWritten | backend/api/gacha/serializers.py:97-115 | the loop keeps the existing rows and appends the rows of a prefix of the entries in entry order, with pickup false when omitted; the rows written before a bad entry stay written |
| Serializers.WriteEntriesChecked | backend/api/gacha/serializers.py:98-109 | every entry written had a `character_id` naming an existing character |
| Serializers.WriteEntriesTargets | backend/api/gacha/serializers.py:111-115 | every row written belongs to the gacha and to an existing character |
| Serializers.WriteEntriesUnique | backend/api/gacha/serializers.py:111-115 | the loop never writes a second row for a (gacha, character) pair |
| Serializers.WriteEntriesFirstError | backend/api/gacha/serializers.py:101-109 | the reported error is the first bad entry's: a missing id, an unknown character, or a character already in the pool |
| Serializers.WriteEntriesComplete | backend/api/gacha/serializers.py:60-78 | after a complete loop the gacha's pool is exactly the submitted entries in order, with pickup false when omitted, and other gachas' pools are unchanged |
| Serializers.CreateKeepsInvariant | backend/api/gacha/serializers.py:47-79 | storing a gacha under a fresh id and a free name, then its pool rows, keeps every key unique and every pool row pointing at a stored gacha and character |
| Serializers.CreateGacha | backend/api/gacha/serializers.py:47-79 | a taken name changes nothing; otherwise the gacha is stored under the fresh id with the submitted name, description, dates and rate table (empty when omitted), and on success its pool is exactly the submitted entries |
| Serializers.UpdateGacha | backend/api/gacha/serializers.py:82-116 | a taken name changes nothing; otherwise each of name, description, start and end date and rate table is the supplied value or the stored one when omitted, the pool is deleted and rewritten (empty when omitted), and other gachas' pools are unchanged |
| Serializers.Patched | backend/api/gacha/serializers.py:84-92 | the id is kept; each of name, description, start and end date and rate table takes the supplied value, and keeps the stored one when omitted |
| Serializers.ReplacePool | backend/api/gacha/serializers.py:96-115 | delete-then-rewrite touches only this gacha's rows, keeps the key unique, writes only existing characters, and on success leaves exactly the submitted entries |
| Serializers.OtherPools | backend/api/gacha/serializers.py:96 | deleting a gacha's pool leaves only stored rows of other gachas, with the key still unique |
| Serializers.OtherPoolsOf | backend/api/gacha/serializers.py:96 | the delete leaves every other gacha's pool as it was |
| Serializers.ReplacePoolRows | backend/api/gacha/serializers.py:96-115 | after delete-then-rewrite a row is either a stored row of another gacha or a new row of this gacha for an existing character |
| Serializers.ReplacePoolOthers | backend/api/gacha/serializers.py:96-115 | delete-then-rewrite leaves every other gacha's pool as it was |
| Serializers.ReplacePoolIdempotent | backend/api/gacha/serializers.py:96-115 | rewriting a pool with the same entries a second time leaves the table as the first rewrite did |
| Serializers.PatchedIdempotent | backend/api/gacha/serializers.py:84-92 | applying the same field updates twice gives the gacha that applying them once gives |
| Serializers.UpdateGachaIdempotent | backend/api/gacha/serializers.py:82-116 | a successful update repeated with the same data yields the same gacha and store |
| Access.GrantsMonotone | backend/api/gacha/views.py:22-41 | a staff user passes every permission an ordinary user passes, and an ordinary user every one an anonymous caller passes |
| Access.CharacterPermission | backend/api/gacha/views.py:22-27 | the catalog may be read by anyone and changed only by staff |
| Access.GachaPermission | backend/api/gacha/views.py:33-41 | gachas may be read by anyone and pulled by any signed-in user, never anonymously; only staff create, change or delete them |
| Access.Own | backend/api/gacha/views.py:187-202 | the per-user filter of both querysets keeps each of the user's rows as often as it is stored, and no other row |
| Access.HistoryQuery | backend/api/gacha/views.py:199-203 | an anonymous caller gets nothing; a user gets exactly their own records, newest first |
| Access.HistoryQueryOwn | backend/api/gacha/views.py:199-203 | every record listed belongs to the caller |
| Access.HoldingOrder | backend/api/gacha/views.py:187 | ordering holdings by character rarity descending, then by name, is a total preorder |
| Access.HoldingsQuery | backend/api/gacha/views.py:184-188 | an anonymous caller gets nothing; a user gets exactly their own rows, rarest character first, then by name |
| Access.HoldingsQueryOwn | backend/api/gacha/views.py:184-188 | every listed holdings row is a stored row of the caller |
| Access.HistoryEndpoint | backend/api/gacha/views.py:195-213 | a pull is not routed and answers 404 for everyone; otherwise anonymous callers are refused; writes answer 405; a member's listing shows exactly the caller's records, newest first; a retrieve shows a record exactly when it is the caller's, and 404 otherwise |
| Access.HistoryIsAppendOnly | backend/api/gacha/views.py:205-213 | no caller can create, change or delete a history record through the endpoint |
| PoolEditor.FindIndex | frontend/app/main/management/gacha/add/page.tsx:220 | the index found is the first entry with the id, or there is none |
| PoolEditor.StatusOf | frontend/app/main/management/gacha/add/page.tsx:249-255 | a character shows selected exactly when some entry has its id; its pickup is the entry's flag, and false when unselected |
| PoolEditor.Change | frontend/app/main/management/gacha/add/page.tsx:218-247 | the handler keeps the list free of duplicates and non-positive ids and never affects another character; it selects, deselects, flags, or appends a flagged entry exactly as each branch says, deselecting removing exactly the first entry with the id and the pickup box setting that entry's flag in place |
| PoolEditor.RemoveAt | frontend/app/main/management/gacha/add/page.tsx:231-235 | deselecting removes the character's entry, and in a valid list the character entirely, leaving the others in place |
| PoolEditor.RemoveAtValid | frontend/app/main/management/gacha/add/page.tsx:231-235 | removal keeps a valid list valid and leaves no entry of the removed character |
| PoolEditor.SetPickup | frontend/app/main/management/gacha/add/page.tsx:236-238 | setting the flag changes only that entry's pickup, and the character then shows selected with the new flag |
| PoolEditor.Append | frontend/app/main/management/gacha/add/page.tsx:239-245 | appending a new positive id keeps the list valid and shows the character selected with the given flag |
| PoolEditor.ReplayKeepsValid | frontend/app/main/management/gacha/add/page.tsx:218-247 | no sequence of checkbox events yields a duplicate character or a non-positive id |
| PoolEditor.KeepSelectedIsIdentity | frontend/app/main/management/gacha/add/page.tsx:159-162 | every entry finds itself in the status query, so the submit-time filter drops nothing |
| PoolEditor.SubmittedPool | frontend/app/main/management/gacha/add/page.tsx:159-165 | the pool posted is the editor's list, unchanged |
| PoolEditor.StatusWithout | frontend/app/main/management/gacha/add/page.tsx:249-255 | removing one character's entries does not change another character's status |
| GachaForm.InitialRates | frontend/app/main/management/gacha/add/page.tsx:118-124 | the form starts with one row per rarity choice, in order, each at zero |
| GachaForm.InitialRatesCoverRarities | frontend/app/main/management/gacha/add/page.tsx:118-124 | the initial text "0.00" reads as zero, and the initial rows cover rarities 1 to 5 |
| GachaForm.FieldError | frontend/app/main/management/gacha/add/page.tsx:340-348 | the field rules pass exactly when no row exceeds 100%, and otherwise name a row that does |
| GachaForm.RateText | frontend/app/main/management/gacha/add/page.tsx:157 | the text sent for a percentage reads back on the backend as the same fraction |
| GachaForm.RateItems | frontend/app/main/management/gacha/add/page.tsx:155-158 | each row is sent with its rarity and a rate that the pull reads back as the row's share |
| GachaForm.MissingField | frontend/app/main/management/gacha/add/page.tsx:284-319 | the required rules pass exactly when the name and both dates hold some text, and an empty name is reported as the name's rule |
| GachaForm.Submit | frontend/app/main/management/gacha/add/page.tsx:137-166 | the form is posted exactly when the name and both dates are filled in, no rate exceeds 100% and the rates total 100%; an empty required field is refused by its rule; it is refused for the sum exactly when the field rules pass but the total is wrong; a posted body carries the entered name and description and a rate table totalling exactly 1 |
| GachaForm.InitialFormRejected | frontend/app/main/management/gacha/add/page.tsx:85-92 | the form as first shown is refused for its empty name, and once the name and dates are filled in, by the sum check for its 0% total |
| GachaForm.SubmittedRatesDrawNoWarning | frontend/app/main/management/gacha/add/page.tsx:155-158 | a rate table posted by the form is drawable and never draws the pull's total warning |
| GachaPage.RequestedCount | frontend/app/main/gacha/page.tsx:152-158 | the single button asks for 1 pull and the ten button for 10 |
| GachaPage.ButtonCountAccepted | frontend/app/main/gacha/page.tsx:152-158 | the count either button sends is accepted by the pull endpoint unchanged |
| GachaPage.Join | frontend/app/main/gacha/page.tsx:126 | no labels give the empty text, a single label is shown alone, and further labels follow the separator |
| GachaPage.JoinAppend | frontend/app/main/gacha/page.tsx:126 | joining two non-empty label lists gives their joins with exactly one separator between them |
| GachaPage.Labels | frontend/app/main/gacha/page.tsx:126 | one label per pulled character, in order |
| GachaPage.ResultCountReadsBack | frontend/app/main/gacha/page.tsx:122-129 | the count stated in a non-empty result message reads back as the number of characters listed |
| GachaPage.PerformPull | frontend/app/main/gacha/page.tsx:100-130 | without a non-empty stored token no request is sent and the login message is shown; otherwise the button's count is sent and the reply becomes the result message |
| GachaPage.AsPulled | frontend/app/main/gacha/page.tsx:122 | the page receives each pulled character's name and rarity, in order |
| GachaPage.SuccessfulPullMessage | frontend/app/main/gacha/page.tsx:122-129 | when the backend accepts a button's pull, the message lists exactly as many characters as asked for, each labelled with its stars |
| GachaPage.NameCompare | frontend/app/main/gacha/page.tsx:371 | the name comparison is non-positive exactly when the first name sorts first, and zero exactly when the names are equal |
| GachaPage.DisplayOrder | frontend/app/main/gacha/page.tsx:363-372 | the pool comparator is consistent (swapping flips the sign) and orders by rarity descending, then pickup first, then name |
| GachaPage.DisplayMatchesDefaultWithinRarity | frontend/app/main/gacha/page.tsx:363-372 | within one rarity the dialog's order is the database's default pool order |
| GachaPage.DisplayPool | frontend/app/main/gacha/page.tsx:363-372 | the dialog lists a permutation of the pool, rarest first |
| GachaPage.DisplayRates | frontend/app/main/gacha/page.tsx:349-350 | when every rate is readable the dialog lists a permutation of the rates, highest first; an unreadable rate leaves the order undetermined |
| Helpers.Stars | frontend/src/utils/helpers.ts:12-14 | `k` stars are `k` consecutive copies of the star emoji |
| Helpers.RarityStars | frontend/src/utils/helpers.ts:12-14 | a negative count raises a RangeError; otherwise the label is that many stars, and zero gives the empty text |
| Helpers.DisplayNameIsStars | frontend/src/utils/helpers.ts:1-14 | for rarities 1 to 5 the display name equals the star row |
| Helpers.DisplayNameOutsideRange | frontend/src/utils/helpers.ts:8 | any other number is shown as its numeral, which reads back as the number |
| Helpers.StarsNotNumeral | frontend/src/utils/helpers.ts:1-9 | the label of a rarity 1 to 5 is never the label of a number outside that range |
| Helpers.DisplayNameInjective | frontend/src/utils/helpers.ts:1-9 | different numbers never share a display name |

## Left out

- Pull.Draw and Pull.Pull: assume Python 3.9 or later, where `random.choices` raises on weights that total zero; on 3.8 it would return the last item, and no Python version is pinned.
- Networking, JSON transport, JWT authentication and the React rendering are
  not part of this model. A request arrives as a `Requester` and the page's
  reply as a value.
- The difference between 401 and 403 is not modelled: a refused permission
  check is the single reply `Denied` in `Access.HistoryEndpoint`.
- Floating point is not modelled. `parseFloat`, `toFixed` and Python's
  `float(Decimal)` work on exact fixed-point numbers with four decimals, and
  rate strings with more decimals or an exponent are read as malformed.
- Rates.RateValues: reads only unsigned fixed-point text with at most four
  decimals. Other text that Python's `Decimal` accepts, such as `"1e-2"`,
  `"-0.5"`, `" 0.5"` or `"NaN"`, is reported as malformed, although the
  backend would read it (and a negative or NaN weight would then make
  `random.choices` misbehave or raise).
- Database concurrency is not modelled: the `F('quantity') + 1` update and
  simultaneous pulls. Every pull runs alone against the ledger it is given.
- The database-assigned ids and the `created_at` and `updated_at` stamps are
  inputs.
- Pull.HistoryFor and Pull.Pull: stamp every history row of one pull with the single
  reading `now`. The source takes a fresh clock reading per row
  (`backend/api/gacha/views.py:164`, which the field's `auto_now_add`
  replaces with its own reading at save, `backend/api/gacha/models.py:113`),
  so the rows of one pull carry increasing stamps and the history listing's
  `-pulled_at` order shows the last-drawn first. In the model they tie, and
  `Access.HistoryQuery` promises newest-first only across stamps.
- Rates.RateValues and Rates.RarityKeys: a rate item is a `rarity` that is an
  integer or absent and a `rate` that is text or absent. Other JSON shapes are
  not representable: a numeric `rate` (which `Decimal` reads as well), a null
  `rate` or an item that is not an object (where the `TypeError` escapes the
  `except (KeyError, InvalidOperation)` at `backend/api/gacha/views.py:82`
  and the request answers 500 rather than 400), and a `rarity` of another
  type such as `"5"` (which matches no character, so the draw answers 500).
- Models.NameLe and GachaPage.NameCompare: names are ordered by code point,
  standing for both the database collation and `localeCompare`. They differ:
  `localeCompare` puts `"a"` before `"B"` where code-point order puts `"B"`
  first, and it answers 0 for canonically equivalent but unequal strings,
  which the `NameCompare` contract (zero exactly when the names are equal)
  rules out.
- The ordering of the character list by id (`backend/api/gacha/views.py:19`)
  and of the gacha list by `-created_at` (`backend/api/gacha/views.py:30`) are
  not modelled. Neither affects the draw.
- The holdings model's default ordering (`backend/api/gacha/models.py:102`) is
  not modelled, because the holdings queryset replaces it.
- `Access.HistoryEndpoint` addresses a record by its position in the table,
  standing for the primary key. The history table's read-only serializer is
  not modelled.
- The serializers' field validation is not modelled, apart from the unique
  gacha name. `MissingCharacterId` mirrors the explicit check in the gacha
  serializer, which the required nested `character_id` field already makes
  unreachable through validation.
- The creation form's NaN rule is not modelled as a separate error: the field
  rules `required` and the numeric check refuse unreadable text before the
  submit handler runs, so a row is always a number of hundredths.
- The creation form's "add rate" button is commented out, so the form always
  has the five rows it starts with.
- The page's error branches after a request (HTTP and transport errors) and the
  loading and snackbar state are not modelled.
- The dialog's percentage display `parseFloat(rate) * 100`
  (`frontend/app/main/gacha/page.tsx:353`) is floating point and not modelled.
- Date formatting and parsing (`formatISO`) are not modelled: dates are whole
  numbers on one clock.
- The pull's `print` and `logger` output is not modelled, except the total
  warning, which is the flag `rateWarning`.
- Helpers.RarityDisplayName and Decimal.IntToString: a JavaScript `number` is
  modelled as an unbounded integer and `String(n)` as its decimal numeral. That
  agrees with JavaScript for integer-valued numbers below 10^21 in magnitude.
  From 10^21 on JavaScript writes exponent form (`String(1e21)` is `"1e+21"`).
  Non-integral numbers (`String(2.5)` is `"2.5"`), `NaN`, the infinities and
  `-0` (shown as `"0"`) are not represented.
- Helpers.DisplayNameOutsideRange: the numeral reads back through `ParseInt`
  in the model. For JavaScript that holds only below 10^21 in magnitude, since
  an exponent-form label does not parse as an integer.
- Helpers.DisplayNameInjective: proved over integers only. Over JavaScript
  numbers it would also rest on `String` being injective on doubles, which is
  not modelled; `0` and `-0` both show as `"0"`, although they compare equal.
- Helpers.RarityStars: the count is an integer. `repeat` truncates a
  fractional count (`repeat(2.5)` gives two stars) and refuses an infinite one,
  which the model does not represent.

=== FILE: decimal.dfy ===
/**
 * Decimal text: the rendering of integers (`String(n)` in the front end) and
 * the four-place fixed-point rate strings exchanged between the gacha editor
 * (`toFixed(4)`) and the back end (`Decimal(...)`). Rates are counted in
 * ten-thousandths, so "0.0300" is the number 300.
 */
module Decimal {
  import opened Wrappers

  /** Ten-thousandths per unit: a rate string carries four decimal places. */
  const Scale: nat := 10000

  predicate IsDigit(c: char) {
    '0' <= c <= '9'
  }

  predicate AllDigits(s: string) {
    forall i | 0 <= i < |s| :: IsDigit(s[i])
  }

  function DigitChar(d: nat): (c: char)
    requires d < 10
    ensures IsDigit(c)
  {
    ('0' as int + d) as char
  }

  function DigitValue(c: char): (d: nat)
    requires IsDigit(c)
    ensures d < 10
  {
    c as int - '0' as int
  }

  function Pow10(k: nat): (p: nat)
    ensures p >= 1
  {
    if k == 0 then 1 else 10 * Pow10(k - 1)
  }

  /** Value of a string of decimal digits, most significant first. */
  function ParseNat(s: string): nat
    requires AllDigits(s)
  {
    if |s| == 0 then 0 else ParseNat(s[..|s| - 1]) * 10 + DigitValue(s[|s| - 1])
  }

  /** Shortest decimal rendering of `n` (no leading zero except for 0 itself). */
  function NatToString(n: nat): (s: string)
    ensures |s| > 0 && AllDigits(s)
    ensures s[0] == '0' ==> n == 0
  {
    if n < 10 then [DigitChar(n)] else NatToString(n / 10) + [DigitChar(n % 10)]
  }

  lemma {:induction false} ParseNatToString(n: nat)
    ensures ParseNat(NatToString(n)) == n
  {
    if n >= 10 {
      var s := NatToString(n);
      assert s[..|s| - 1] == NatToString(n / 10);
      ParseNatToString(n / 10);
    }
  }

  /** `String(n)` of JavaScript for an integral number. */
  function IntToString(n: int): (s: string)
    ensures |s| > 0
    ensures s[0] == '-' <==> n < 0
  {
    if n < 0 then "-" + NatToString(-n) else NatToString(n)
  }

  /** Reads back an optionally signed decimal integer. */
  function ParseInt(s: string): Option<int> {
    if |s| > 1 && s[0] == '-' && AllDigits(s[1..]) then Some(0 - ParseNat(s[1..]) as int)
    else if |s| > 0 && AllDigits(s) then Some(ParseNat(s))
    else None
  }

  lemma IntToStringRoundTrip(n: int)
    ensures ParseInt(IntToString(n)) == Some(n)
  {
    var s := IntToString(n);
    if n < 0 {
      assert s[1..] == NatToString(-n);
      ParseNatToString(-n);
    } else {
      ParseNatToString(n);
    }
  }

  /** The `width` low-order digits of `k`, zero-padded on the left. */
  function Pad(k: nat, width: nat): (s: string)
    requires k < Pow10(width)
    ensures |s| == width && AllDigits(s)
  {
    if width == 0 then [] else Pad(k / 10, width - 1) + [DigitChar(k % 10)]
  }

  lemma {:induction false} ParsePad(k: nat, width: nat)
    requires k < Pow10(width)
    ensures ParseNat(Pad(k, width)) == k
  {
    if width > 0 {
      var s := Pad(k, width);
      assert s[..|s| - 1] == Pad(k / 10, width - 1);
      ParsePad(k / 10, width - 1);
    }
  }

  /** JavaScript `(v / 10000).toFixed(4)` for a count `v` of ten-thousandths. */
  function FormatFixed4(v: nat): string {
    NatToString(v / Scale) + "." + Pad(v % Scale, 4)
  }

  /** Index of the first occurrence of `c` in `s`. */
  function IndexOf(s: string, c: char): (r: Option<nat>)
    ensures r.Some? ==> r.value < |s| && s[r.value] == c && c !in s[..r.value]
    ensures r.None? ==> c !in s
  {
    if |s| == 0 then None
    else if s[0] == c then Some(0)
    else match IndexOf(s[1..], c)
      case None => None
      case Some(i) => Some(i + 1)
  }

  /**
   * Python's `Decimal(s)` restricted to unsigned plain decimals with at most
   * four fractional digits ("1", "0.5", ".25", "3."), scaled to
   * ten-thousandths. `None` stands for `InvalidOperation`.
   */
  function ParseFixed4(s: string): (r: Option<nat>)
    ensures r.Some? ==> |s| > 0
  {
    match IndexOf(s, '.')
    case None =>
      if |s| > 0 && AllDigits(s) then Some(ParseNat(s) * Scale) else None
    case Some(i) =>
      var whole, frac := s[..i], s[i + 1..];
      if |whole| + |frac| > 0 && AllDigits(whole) && AllDigits(frac) && |frac| <= 4
      then Some(ParseNat(whole) * Scale + ParseNat(frac) * Pow10(4 - |frac|))
      else None
  }

  lemma DigitsHaveNoPoint(s: string)
    requires AllDigits(s)
    ensures '.' !in s
  {
  }

  /** A rate rendered with four places by the editor parses back to the same value. */
  lemma FixedRoundTrip(v: nat)
    ensures ParseFixed4(FormatFixed4(v)) == Some(v)
  {
    var whole, frac := NatToString(v / Scale), Pad(v % Scale, 4);
    var s := FormatFixed4(v);
    assert s == whole + "." + frac;
    DigitsHaveNoPoint(whole);
    assert s[|whole|] == '.' && s[..|whole|] == whole;
    assert IndexOf(s, '.') == Some(|whole|);
    assert s[|whole| + 1..] == frac;
    ParseNatToString(v / Scale);
    ParsePad(v % Scale, 4);
  }
}

=== FILE: gacha_form.dfy ===
/**
 * The gacha creation form's rate table and its submit handler: five rate
 * rows entered as percentages with two decimals, a sum check, and the
 * conversion to the four-decimal fractions the backend stores.
 */
module GachaForm {
  import opened Wrappers
  import opened Models
  import opened Decimal
  import opened Selection
  import opened Rates
  import PoolEditor
  import Pull

  /** One rate row: a rarity and its share in hundredths of a percent (the input's step is 0.01). */
  datatype FormRate = FormRate(rarity: int, percent: nat)

  /** 100% in hundredths of a percent. */
  const HundredPercent: nat := 10000

  /** The text every rate field starts with. */
  const InitialRateText: string := "0.00"

  /** The rate rows the form starts with: one per rarity choice, each at zero. */
  function InitialRates(): (r: seq<FormRate>)
    ensures |r| == |RarityChoices|
    ensures forall i | 0 <= i < |r| :: r[i].rarity == RarityChoices[i] && r[i].percent == 0
  {
    seq(|RarityChoices|, i requires 0 <= i < |RarityChoices| => FormRate(RarityChoices[i], 0))
  }

  /** The starting text reads as zero, and the starting rows cover rarities 1 to 5 once each. */
  lemma InitialRatesCoverRarities()
    ensures ParseFixed4(InitialRateText) == Some(0)
    ensures (set i | 0 <= i < |InitialRates()| :: InitialRates()[i].rarity) == {1, 2, 3, 4, 5}
  {
    var r := InitialRates();
    assert InitialRateText[..1] == "0" && InitialRateText[2..] == "00";
    assert IndexOf(InitialRateText, '.') == Some(1);
    assert r[0].rarity == 1 && r[1].rarity == 2 && r[2].rarity == 3 && r[3].rarity == 4 && r[4].rarity == 5;
  }

  /** The text fields of the form's basic section, as entered. */
  datatype BasicFields = BasicFields(name: string, description: string, startDate: string, endDate: string)

  /** The basic fields that carry a `required` rule. */
  datatype RequiredField = NameField | StartDateField | EndDateField

  datatype FormError =
    | Required(field: RequiredField)  // a field rule: the name and both dates must not be empty
    | RateOutOfRange(rarity: int)     // a field rule: at most 100%
    | RatesNot100                     // the submit handler's sum check

  /** The body posted to the gacha endpoint (the dates are passed through `formatISO` and not modelled). */
  datatype Submission = Submission(name: string, description: string,
                                   rarityRates: seq<RateItem>, characterPool: seq<PoolEditor.Selection>)

  /** Every field with a `required` rule holds some text. */
  predicate Filled(b: BasicFields) {
    b.name != "" && b.startDate != "" && b.endDate != ""
  }

  /** The first required field left empty, if any: `required` refuses the empty text. */
  function MissingField(b: BasicFields): (r: Option<FormError>)
    ensures r.None? <==> Filled(b)
    ensures r.Some? ==> r.value.Required?
    ensures r == Some(Required(NameField)) <==> b.name == ""
  {
    if b.name == "" then Some(Required(NameField))
    else if b.startDate == "" then Some(Required(StartDateField))
    else if b.endDate == "" then Some(Required(EndDateField))
    else None
  }

  function Percents(rates: seq<FormRate>): (r: seq<nat>)
    ensures |r| == |rates| && forall i | 0 <= i < |rates| :: r[i] == rates[i].percent
  {
    seq(|rates|, i requires 0 <= i < |rates| => rates[i].percent)
  }

  /** The first row whose field rule fails (more than 100%), if any. */
  function FieldError(rates: seq<FormRate>): (r: Option<FormError>)
    ensures r.None? <==> forall i | 0 <= i < |rates| :: rates[i].percent <= HundredPercent
    ensures r.Some? ==> exists i | 0 <= i < |rates| :: r == Some(RateOutOfRange(rates[i].rarity)) && rates[i].percent > HundredPercent
  {
    if |rates| == 0 then None
    else if rates[0].percent > HundredPercent then Some(RateOutOfRange(rates[0].rarity))
    else
      var r := FieldError(rates[1..]);
      assert r.None? ==> forall i | 0 <= i < |rates| :: rates[i].percent <= HundredPercent by {
        if r.None? {
          forall i | 0 <= i < |rates| ensures rates[i].percent <= HundredPercent {
            if i > 0 { assert rates[i] == rates[1..][i - 1]; }
          }
        }
      }
      r
  }

  /**
   * The rate a row is sent with: the percentage divided by 100, to four
   * places. A share of `p` hundredths of a percent is `p` ten-thousandths.
   */
  function RateText(percent: nat): (s: string)
    ensures ParseFixed4(s) == Some(percent)
  {
    FixedRoundTrip(percent);
    FormatFixed4(percent)
  }

  function RateItems(rates: seq<FormRate>): (r: seq<RateItem>)
    ensures |r| == |rates|
    ensures forall i | 0 <= i < |rates| :: r[i].rarity == Some(rates[i].rarity) && r[i].rate == Some(RateText(rates[i].percent))
    ensures RateValues(r) == Some(Percents(rates))
  {
    var r := seq(|rates|, i requires 0 <= i < |rates| => RateItem(Some(rates[i].rarity), Some(RateText(rates[i].percent))));
    assert forall i | 0 <= i < |r| :: RateParses(r[i]);
    assert RateValues(r).value == Percents(rates);
    r
  }

  /**
   * Submitting the form: the field rules run first, and the handler is not
   * called while any fails (one failing rule is reported); the handler then
   * refuses rates whose sum is not 100% (the tolerance of 0.0001 is below
   * the inputs' resolution, so the sum must be exact), and posts the name,
   * the description, the converted rates and every pool entry whose status
   * reports it selected.
   */
  function Submit(basics: BasicFields, rates: seq<FormRate>, pool: seq<PoolEditor.Selection>): (r: Result<Submission, FormError>)
    ensures r.Ok? <==> Filled(basics) && (forall i | 0 <= i < |rates| :: rates[i].percent <= HundredPercent) && Total(Percents(rates)) == HundredPercent
    ensures r == Err(RatesNot100) <==> Filled(basics) && (forall i | 0 <= i < |rates| :: rates[i].percent <= HundredPercent) && Total(Percents(rates)) != HundredPercent
    ensures !Filled(basics) ==> r.Err? && r.error.Required?
    ensures r.Ok? ==> r.value.name == basics.name && r.value.description == basics.description
    ensures r.Ok? ==> r.value.characterPool == pool
    ensures r.Ok? ==> |r.value.rarityRates| == |rates|
    ensures r.Ok? ==> forall i | 0 <= i < |rates| :: r.value.rarityRates[i].rarity == Some(rates[i].rarity)
    // what the backend reads back: the same shares, totalling exactly 1
    ensures r.Ok? ==> RateValues(r.value.rarityRates) == Some(Percents(rates))
    ensures r.Ok? ==> Total(RateValues(r.value.rarityRates).value) == Scale
  {
    match MissingField(basics)
    case Some(e) => Err(e)
    case None =>
      match FieldError(rates)
      case Some(e) => Err(e)
      case None =>
        if Total(Percents(rates)) != HundredPercent then Err(RatesNot100)
        else Ok(Submission(basics.name, basics.description, RateItems(rates), PoolEditor.SubmittedPool(pool)))
  }

  /**
   * The form as first shown cannot be submitted: its name is empty, and
   * once the basic fields are filled in its rates still total 0%.
   */
  lemma InitialFormRejected(basics: BasicFields, pool: seq<PoolEditor.Selection>)
    ensures basics.name == "" ==> Submit(basics, InitialRates(), pool) == Err(Required(NameField))
    ensures Filled(basics) ==> Submit(basics, InitialRates(), pool) == Err(RatesNot100)
  {
    var rates := InitialRates();
    var p := Percents(rates);
    assert p == [0, 0, 0, 0, 0];
    assert Total(p[4..]) == 0 && Total(p[3..]) == 0 && Total(p[2..]) == 0 && Total(p[1..]) == 0;
  }

  /** A gacha whose rates come from a submitted form never draws the rate-total warning, and its rates are drawable. */
  lemma SubmittedRatesDrawNoWarning(basics: BasicFields, rates: seq<FormRate>, pool: seq<PoolEditor.Selection>,
                                    user: int, gacha: Gacha, poolRows: seq<PoolEntry>, now: int,
                                    count: Pull.PullCountField, rolls: nat -> Pull.Roll, writesFail: bool, ledger: Pull.Ledger)
    requires Submit(basics, rates, pool).Ok?
    requires gacha.rarityRates == Submit(basics, rates, pool).value.rarityRates
    ensures !Pull.Pull(user, gacha, poolRows, now, count, rolls, writesFail, ledger).rateWarning
    ensures Pull.Drawable(gacha.rarityRates)
  {
    Pull.RateWarningIff(user, gacha, poolRows, now, count, rolls, writesFail, ledger);
    var items := gacha.rarityRates;
    assert RarityKeys(items).Some?;
  }
}

=== FILE: gacha_page.dfy ===
/**
 * The player's gacha page: the two pull buttons, the result message built
 * from the pull response, and the info dialog's ordering of the rate table
 * and of the character pool.
 */
module GachaPage {
  import opened Wrappers
  import opened Models
  import opened Decimal
  import opened Sorting
  import opened Rates
  import opened Helpers
  import Pull

  // ----- pulling -----

  datatype PullButton = SinglePull | TenPull

  /** `handleSinglePull` / `handleTenPull`: the `pull_count` each button sends. */
  function RequestedCount(b: PullButton): (n: nat)
    ensures n == 1 <==> b == SinglePull
    ensures n == 10 <==> b == TenPull
  {
    match b
    case SinglePull => 1
    case TenPull => 10
  }

  /** Both buttons send a count the pull endpoint accepts, and it is read unchanged. */
  lemma ButtonCountAccepted(b: PullButton)
    ensures Pull.PullCount(Pull.IntValue(RequestedCount(b))) == Some(RequestedCount(b))
  {
  }

  /** The part of a pulled character the message shows. */
  datatype Pulled = Pulled(name: string, rarity: int)

  const NotLoggedInMessage: string := "エラー: ログインしていません。ガチャを引くにはログインが必要です。"
  const NothingDrawnText: string := "キャラクターは排出されませんでした。"
  const ObtainedText: string := "体のキャラクターを獲得しました！\n獲得: "
  const Separator: string := ", "

  /** The message head naming the gacha and the count asked for. */
  function Heading(gachaName: string, pullCount: int): string {
    "【" + gachaName + "を" + IntToString(pullCount) + "回引く結果】"
  }

  /** One pulled character as listed: its name, then its rarity label in parentheses. */
  function Label(c: Pulled): string {
    c.name + " (" + RarityDisplayName(c.rarity) + ")"
  }

  /** `Array.prototype.join`. */
  function Join(parts: seq<string>, sep: string): (s: string)
    ensures |parts| == 0 ==> s == ""
    ensures |parts| == 1 ==> s == parts[0]
    ensures |parts| > 1 ==> s == parts[0] + sep + Join(parts[1..], sep)
  {
    if |parts| == 0 then ""
    else if |parts| == 1 then parts[0]
    else parts[0] + sep + Join(parts[1..], sep)
  }

  /** Joining two non-empty lists puts one separator between their joins. */
  lemma {:induction false} JoinAppend(a: seq<string>, b: seq<string>, sep: string)
    requires |a| > 0 && |b| > 0
    ensures Join(a + b, sep) == Join(a, sep) + sep + Join(b, sep)
  {
    if |a| == 1 {
      assert (a + b)[1..] == b;
    } else {
      assert (a + b)[1..] == a[1..] + b;
      JoinAppend(a[1..], b, sep);
    }
  }

  function Labels(cs: seq<Pulled>): (r: seq<string>)
    ensures |r| == |cs| && forall i | 0 <= i < |cs| :: r[i] == Label(cs[i])
  {
    seq(|cs|, i requires 0 <= i < |cs| => Label(cs[i]))
  }

  /**
   * The result message of a completed request: the heading, then either
   * the number of characters obtained and their labels in pull order, or
   * the "nothing drawn" text when the list is missing or empty.
   */
  function ResultMessage(gachaName: string, pullCount: int, pulled: Option<seq<Pulled>>): (m: string)
    ensures pulled.None? || |pulled.value| == 0 ==> m == Heading(gachaName, pullCount) + NothingDrawnText
    ensures pulled.Some? && |pulled.value| > 0 ==>
      m == Heading(gachaName, pullCount) + IntToString(|pulled.value|) + ObtainedText + Join(Labels(pulled.value), Separator)
  {
    var head := Heading(gachaName, pullCount);
    if pulled.Some? && |pulled.value| > 0 then
      head + IntToString(|pulled.value|) + ObtainedText + Join(Labels(pulled.value), Separator)
    else head + NothingDrawnText
  }

  /** The count stated in a non-empty result reads back as the number of characters listed. */
  lemma ResultCountReadsBack(gachaName: string, pullCount: int, pulled: seq<Pulled>)
    requires |pulled| > 0
    ensures var m := ResultMessage(gachaName, pullCount, Some(pulled));
      var start := |Heading(gachaName, pullCount)|;
      var digits := |IntToString(|pulled|)|;
      && start + digits <= |m|
      && ParseInt(m[start .. start + digits]) == Some(|pulled|)
      && m[start + digits ..][..|ObtainedText|] == ObtainedText
  {
    var m := ResultMessage(gachaName, pullCount, Some(pulled));
    var head, count := Heading(gachaName, pullCount), IntToString(|pulled|);
    var rest := ObtainedText + Join(Labels(pulled), Separator);
    assert m == head + count + rest;
    assert m[|head| .. |head| + |count|] == count;
    assert m[|head| + |count| ..] == rest;
    IntToStringRoundTrip(|pulled|);
  }

  /** What a click does: the request sent, if any, and the message shown. */
  datatype Click = Click(request: Option<nat>, message: string)

  /**
   * `performGachaPull`: without a stored access token (missing or empty)
   * nothing is sent and the login message is shown; otherwise the count
   * is posted and the reply's `pulled_characters` is turned into the
   * result message. Transport and HTTP errors are not modelled.
   */
  function PerformPull(token: Option<string>, gachaName: string, b: PullButton, reply: Option<seq<Pulled>>): (c: Click)
    ensures c.request.None? <==> token.None? || token.value == ""
    ensures c.request.None? ==> c.message == NotLoggedInMessage
    ensures c.request.Some? ==> c.request.value == RequestedCount(b)
    ensures c.request.Some? ==> c.message == ResultMessage(gachaName, RequestedCount(b), reply)
  {
    if token.None? || token.value == "" then Click(None, NotLoggedInMessage)
    else Click(Some(RequestedCount(b)), ResultMessage(gachaName, RequestedCount(b), reply))
  }

  /** The characters of a pull response as the page receives them. */
  function AsPulled(cs: seq<Character>): (r: seq<Pulled>)
    ensures |r| == |cs| && forall i | 0 <= i < |cs| :: r[i] == Pulled(cs[i].name, cs[i].rarity)
  {
    seq(|cs|, i requires 0 <= i < |cs| => Pulled(cs[i].name, cs[i].rarity))
  }

  /**
   * When the backend accepts a button's pull, the message lists exactly as
   * many characters as the button asked for, each with a star label.
   */
  lemma SuccessfulPullMessage(b: PullButton, token: string, gachaName: string,
                              user: int, gacha: Gacha, poolRows: seq<PoolEntry>, now: int,
                              rolls: nat -> Pull.Roll, writesFail: bool, ledger: Pull.Ledger)
    requires token != ""
    ensures var resp := Pull.Pull(user, gacha, poolRows, now, Pull.IntValue(RequestedCount(b)), rolls, writesFail, ledger);
      resp.outcome.Ok? ==> var pulled := AsPulled(resp.outcome.value);
      && |pulled| == RequestedCount(b)
      && PerformPull(Some(token), gachaName, b, Some(pulled)).message
           == Heading(gachaName, RequestedCount(b)) + IntToString(RequestedCount(b)) + ObtainedText + Join(Labels(pulled), Separator)
      && forall i | 0 <= i < |pulled| :: RarityStars(pulled[i].rarity) == Ok(RarityDisplayName(pulled[i].rarity))
  {
    var resp := Pull.Pull(user, gacha, poolRows, now, Pull.IntValue(RequestedCount(b)), rolls, writesFail, ledger);
    if resp.outcome.Ok? {
      ButtonCountAccepted(b);
      MessageForPulled(b, token, gachaName, resp.outcome.value);
    }
  }

  /** The message for as many characters as the button asked for. */
  lemma MessageForPulled(b: PullButton, token: string, gachaName: string, cs: seq<Character>)
    requires token != ""
    requires |cs| == RequestedCount(b)
    ensures var pulled := AsPulled(cs);
      && |pulled| == RequestedCount(b)
      && PerformPull(Some(token), gachaName, b, Some(pulled)).message
           == Heading(gachaName, RequestedCount(b)) + IntToString(RequestedCount(b)) + ObtainedText + Join(Labels(pulled), Separator)
      && forall i | 0 <= i < |pulled| :: RarityStars(pulled[i].rarity) == Ok(RarityDisplayName(pulled[i].rarity))
  {
    var pulled := AsPulled(cs);
    forall i | 0 <= i < |pulled| ensures RarityStars(pulled[i].rarity) == Ok(RarityDisplayName(pulled[i].rarity)) {
      DisplayNameIsStars(pulled[i].rarity);
    }
  }

  // ----- the info dialog -----

  /** `localeCompare`, replaced by code-point order: negative, zero or positive. */
  function NameCompare(a: string, b: string): (c: int)
    ensures c <= 0 <==> NameLe(a, b)
    ensures c == 0 <==> a == b
  {
    NameOrder();
    if a == b then 0 else if NameLe(a, b) then -1 else 1
  }

  /** The pool comparator of the info dialog: higher rarity first, pickup first, then name. */
  function DisplayCompare(a: PoolEntry, b: PoolEntry): int {
    if a.character.rarity != b.character.rarity then b.character.rarity - a.character.rarity
    else if a.isPickup != b.isPickup then (if a.isPickup then -1 else 1)
    else NameCompare(a.character.name, b.character.name)
  }

  /** `a` may be listed before `b`. */
  predicate DisplayLe(a: PoolEntry, b: PoolEntry) {
    DisplayCompare(a, b) <= 0
  }

  /**
   * The comparator is consistent, as `Array.prototype.sort` requires:
   * swapping the arguments flips the sign, and the order it induces is a
   * total preorder that reads as rarity descending, pickup first, name.
   */
  lemma DisplayOrder()
    ensures forall a, b :: (DisplayCompare(a, b) < 0 <==> DisplayCompare(b, a) > 0)
    ensures forall a, b :: (DisplayCompare(a, b) == 0 <==> DisplayCompare(b, a) == 0)
    ensures TotalPreorder(DisplayLe)
    ensures forall a, b :: DisplayLe(a, b) <==>
      a.character.rarity > b.character.rarity
      || (a.character.rarity == b.character.rarity && a.isPickup && !b.isPickup)
      || (a.character.rarity == b.character.rarity && a.isPickup == b.isPickup && NameLe(a.character.name, b.character.name))
  {
    NameOrder();
  }

  /** Within one rarity the dialog lists the pool in the same order as the database's default ordering. */
  lemma DisplayMatchesDefaultWithinRarity(a: PoolEntry, b: PoolEntry)
    requires a.character.rarity == b.character.rarity
    ensures DisplayLe(a, b) <==> PoolLe(a, b)
  {
    DisplayOrder();
  }

  /** The dialog's pool list: a permutation of the pool in display order. */
  function DisplayPool(pool: seq<PoolEntry>): (r: seq<PoolEntry>)
    ensures multiset(r) == multiset(pool)
    ensures forall i, j | 0 <= i < j < |r| :: r[i].character.rarity >= r[j].character.rarity
    ensures SortedBy(DisplayLe, r)
  {
    DisplayOrder();
    Sort(DisplayLe, pool)
  }

  /** The rate of an item as `parseFloat` reads it, in ten-thousandths (0 stands in for NaN). */
  function RateOf(item: RateItem): nat {
    if RateParses(item) then ParseFixed4(item.rate.value).value else 0
  }

  predicate HigherRateFirst(a: RateItem, b: RateItem) {
    RateOf(a) >= RateOf(b)
  }

  /**
   * The dialog's rate list, highest rate first. An unreadable rate makes
   * the comparator return NaN, after which the order is up to the
   * browser: `None`.
   */
  function DisplayRates(items: seq<RateItem>): (r: Option<seq<RateItem>>)
    ensures r.Some? <==> forall i | 0 <= i < |items| :: RateParses(items[i])
    ensures r.Some? ==> multiset(r.value) == multiset(items)
    ensures r.Some? ==> forall i, j | 0 <= i < j < |r.value| :: RateOf(r.value[i]) >= RateOf(r.value[j])
  {
    if forall i | 0 <= i < |items| :: RateParses(items[i]) then
      var r := Sort(HigherRateFirst, items);
      assert TotalPreorder(HigherRateFirst);
      assert forall i | 0 <= i < |r| :: r[i] in multiset(items);
      Some(r)
    else None
  }
}

=== FILE: helpers.dfy ===
/**
 * The rarity labels of the front end: a row of star emoji for a rarity
 * count, and the display name that spells out rarities 1 to 5 as stars and
 * prints any other number as a number.
 */
module Helpers {
  import opened Wrappers
  import opened Decimal

  /** The star emoji: U+2B50 followed by the emoji variation selector U+FE0F. */
  const Star: string := "\U{2B50}\U{FE0F}"

  /** `String.prototype.repeat` refuses a negative count with a RangeError. */
  datatype RangeError = RangeError

  /** `k` copies of the star. */
  function Stars(k: nat): (s: string)
    ensures |s| == |Star| * k
    ensures forall i | 0 <= i < k :: s[|Star| * i .. |Star| * (i + 1)] == Star
  {
    if k == 0 then ""
    else
      var rest := Stars(k - 1);
      var s := rest + Star;
      assert forall i | 0 <= i < k - 1 :: s[|Star| * i .. |Star| * (i + 1)] == rest[|Star| * i .. |Star| * (i + 1)];
      s
  }

  /** `getRarityStars(n)`: the star repeated `n` times. */
  function RarityStars(n: int): (r: Result<string, RangeError>)
    ensures r.Err? <==> n < 0
    ensures r.Ok? ==> r.value == Stars(n)
    ensures n == 0 ==> r == Ok("")
  {
    if n < 0 then Err(RangeError) else Ok(Stars(n))
  }

  /** `getRarityDisplayName(n)`: one literal per known rarity, `String(n)` otherwise. */
  function RarityDisplayName(n: int): string {
    match n
    case 1 => "\U{2B50}\U{FE0F}"
    case 2 => "\U{2B50}\U{FE0F}\U{2B50}\U{FE0F}"
    case 3 => "\U{2B50}\U{FE0F}\U{2B50}\U{FE0F}\U{2B50}\U{FE0F}"
    case 4 => "\U{2B50}\U{FE0F}\U{2B50}\U{FE0F}\U{2B50}\U{FE0F}\U{2B50}\U{FE0F}"
    case 5 => "\U{2B50}\U{FE0F}\U{2B50}\U{FE0F}\U{2B50}\U{FE0F}\U{2B50}\U{FE0F}\U{2B50}\U{FE0F}"
    case _ => IntToString(n)
  }

  /** The hand-written literals agree with the star row for every known rarity. */
  lemma DisplayNameIsStars(n: int)
    requires 1 <= n <= 5
    ensures RarityStars(n) == Ok(RarityDisplayName(n))
  {
    assert Stars(1) == "" + Star;
    assert Stars(2) == Stars(1) + Star;
    assert Stars(3) == Stars(2) + Star;
    assert Stars(4) == Stars(3) + Star;
    assert Stars(5) == Stars(4) + Star;
    assert Star + Star == RarityDisplayName(2);
    assert Star + Star + Star == RarityDisplayName(3);
    assert Star + Star + Star + Star == RarityDisplayName(4);
    assert Star + Star + Star + Star + Star == RarityDisplayName(5);
  }

  /** Any other number is shown as its decimal numeral, which reads back as the number. */
  lemma DisplayNameOutsideRange(n: int)
    requires n < 1 || n > 5
    ensures RarityDisplayName(n) == IntToString(n)
    ensures ParseInt(RarityDisplayName(n)) == Some(n)
  {
    IntToStringRoundTrip(n);
  }

  /** Different rarities never share a label: the stars count the rarity, and a numeral is no star row. */
  lemma DisplayNameInjective(a: int, b: int)
    requires RarityDisplayName(a) == RarityDisplayName(b)
    ensures a == b
  {
    StarsNotNumeral(a, b);
    StarsNotNumeral(b, a);
    if 1 <= a <= 5 && 1 <= b <= 5 {
      DisplayNameIsStars(a);
      DisplayNameIsStars(b);
      assert |Stars(a)| == 2 * a && |Stars(b)| == 2 * b;
    } else if !(1 <= a <= 5) && !(1 <= b <= 5) {
      DisplayNameOutsideRange(a);
      DisplayNameOutsideRange(b);
    }
  }

  /** A star row starts with a star, a numeral does not: no known rarity shares a label with another number. */
  lemma StarsNotNumeral(a: int, b: int)
    ensures 1 <= a <= 5 && (b < 1 || b > 5) ==> RarityDisplayName(a) != RarityDisplayName(b)
  {
    if 1 <= a <= 5 && (b < 1 || b > 5) {
      DisplayNameIsStars(a);
      assert RarityDisplayName(a)[0] == '\U{2B50}';
      DisplayNameOutsideRange(b);
      NumeralHead(b);
    }
  }

  /** A numeral starts with a minus sign or a digit. */
  lemma NumeralHead(n: int)
    ensures IntToString(n)[0] == '-' || IsDigit(IntToString(n)[0])
  {
  }
}

=== FILE: holdings.dfy ===
/**
 * The user-character holdings table as a sequence of rows with the
 * (user, character) uniqueness key, and the get-or-create-then-increment
 * update both the pull and the holdings serializer perform.
 */
module Holdings {
  import opened Wrappers
  import opened Models

  predicate IsKey(row: HoldingRow, user: int, character: int) {
    row.user == user && row.character == character
  }

  /** The row a lookup by (user, character) returns: the first one with that key. */
  function FindHolding(rows: seq<HoldingRow>, user: int, character: int): (r: Option<nat>)
    ensures r.Some? ==> r.value < |rows| && IsKey(rows[r.value], user, character)
    ensures r.Some? ==> forall j | 0 <= j < r.value :: !IsKey(rows[j], user, character)
    ensures r.None? ==> forall j | 0 <= j < |rows| :: !IsKey(rows[j], user, character)
  {
    if |rows| == 0 then None
    else if IsKey(rows[0], user, character) then Some(0)
    else match FindHolding(rows[1..], user, character)
      case None => None
      case Some(i) => Some(i + 1)
  }

  predicate HasHolding(rows: seq<HoldingRow>, user: int, character: int) {
    FindHolding(rows, user, character).Some?
  }

  /** Copies owned: the row's quantity, or 0 without a row. */
  function Quantity(rows: seq<HoldingRow>, user: int, character: int): nat {
    match FindHolding(rows, user, character)
    case None => 0
    case Some(i) => rows[i].quantity
  }

  /**
   * `get_or_create(user, character, defaults={'quantity': q})` followed,
   * when the row already existed, by `quantity += q`.
   */
  function AddCopies(rows: seq<HoldingRow>, user: int, character: int, q: nat): (r: seq<HoldingRow>)
    ensures UniqueHoldings(rows) ==> UniqueHoldings(r)
    ensures forall u, c :: Quantity(r, u, c) == Quantity(rows, u, c) + (if u == user && c == character then q else 0)
    ensures forall u, c :: HasHolding(r, u, c) <==> HasHolding(rows, u, c) || (u == user && c == character)
    ensures !HasHolding(rows, user, character) ==> r == rows + [HoldingRow(user, character, q)]
    ensures HasHolding(rows, user, character) ==> |r| == |rows|
    ensures forall j | 0 <= j < |rows| && !IsKey(rows[j], user, character) :: r[j] == rows[j]
  {
    match FindHolding(rows, user, character)
    case None =>
      var r := rows + [HoldingRow(user, character, q)];
      assert forall u, c :: FindHolding(r, u, c) == (if u == user && c == character then Some(|rows|) else FindHolding(rows, u, c)) by {
        forall u, c ensures FindHolding(r, u, c) == (if u == user && c == character then Some(|rows|) else FindHolding(rows, u, c)) {
          FindInExtended(rows, HoldingRow(user, character, q), u, c);
        }
      }
      r
    case Some(i) =>
      var r := rows[i := rows[i].(quantity := rows[i].quantity + q)];
      assert forall u, c :: FindHolding(r, u, c) == FindHolding(rows, u, c) by {
        forall u, c ensures FindHolding(r, u, c) == FindHolding(rows, u, c) {
          FindIgnoresQuantity(rows, i, rows[i].quantity + q, u, c);
        }
      }
      r
  }

  lemma {:induction false} FindInExtended(rows: seq<HoldingRow>, row: HoldingRow, u: int, c: int)
    requires FindHolding(rows, row.user, row.character).None?
    ensures FindHolding(rows + [row], u, c) ==
      (if u == row.user && c == row.character then Some(|rows|) else FindHolding(rows, u, c))
  {
    if |rows| > 0 {
      assert (rows + [row])[1..] == rows[1..] + [row];
      FindInExtended(rows[1..], row, u, c);
    }
  }

  lemma {:induction false} FindIgnoresQuantity(rows: seq<HoldingRow>, i: nat, q: nat, u: int, c: int)
    requires i < |rows|
    ensures FindHolding(rows[i := rows[i].(quantity := q)], u, c) == FindHolding(rows, u, c)
  {
    if |rows| > 0 && i > 0 {
      assert rows[i := rows[i].(quantity := q)][1..] == rows[1..][i - 1 := rows[i].(quantity := q)];
      FindIgnoresQuantity(rows[1..], i - 1, q, u, c);
    }
  }

  /** One copy credited per character id, in order, for one user. */
  function CreditAll(rows: seq<HoldingRow>, user: int, characters: seq<int>): (r: seq<HoldingRow>)
    ensures UniqueHoldings(rows) ==> UniqueHoldings(r)
    ensures forall u, c :: Quantity(r, u, c) == Quantity(rows, u, c) + (if u == user then multiset(characters)[c] else 0)
    ensures forall u, c :: HasHolding(r, u, c) <==> HasHolding(rows, u, c) || (u == user && c in characters)
  {
    if |characters| == 0 then rows
    else
      var front, last := characters[..|characters| - 1], characters[|characters| - 1];
      assert characters == front + [last];
      AddCopies(CreditAll(rows, user, front), user, last, 1)
  }
}

=== FILE: models.dfy ===
/**
 * The persistent entities of the gacha back end: characters, gachas with
 * their rarity-rate table, pool rows, per-user holdings and pull history,
 * with the uniqueness keys and default orderings the schema declares.
 * Identifiers are the database's integer primary keys.
 */
module Models {
  import opened Wrappers
  import opened Sorting

  /** The rarity choices 1 (N) to 5 (UR); a character's rarity is always one of them. */
  type Rarity = r: int | 1 <= r <= 5 witness 1

  const RarityChoices: seq<Rarity> := [1, 2, 3, 4, 5]

  datatype Attribute = Fire | Water | Wind | Light | Dark | Neutral

  datatype Character = Character(
    id: int,
    name: string,
    description: string,
    rarity: Rarity,
    attribute: Attribute,
    hp: int,
    atk: int,
    agi: int)

  /**
   * One element of a gacha's `rarity_rates` JSON list, such as
   * `{"rarity": 4, "rate": "0.0100"}`. Either key may be missing.
   */
  datatype RateItem = RateItem(rarity: Option<int>, rate: Option<string>)

  /** Times are instants on one integer clock; `None` is a null column (no bound). */
  datatype Gacha = Gacha(
    id: int,
    name: string,
    description: string,
    startDate: Option<int>,
    endDate: Option<int>,
    rarityRates: seq<RateItem>)

  /** A stored gacha/character pool row (foreign keys only). */
  datatype PoolRow = PoolRow(gacha: int, character: int, isPickup: bool)

  /** A pool row joined with its character, as the pull reads it. */
  datatype PoolEntry = PoolEntry(character: Character, isPickup: bool)

  /** A holdings row: how many copies of a character a user owns. */
  datatype HoldingRow = HoldingRow(user: int, character: int, quantity: nat)

  /** Quantity given to a holdings row created without an explicit one. */
  const DefaultQuantity: nat := 1

  /** One awarded pull; written once, never updated. */
  datatype HistoryRecord = HistoryRecord(user: int, gacha: int, character: int, pulledAt: int)

  // ----- uniqueness keys -----

  /** The character table: keyed by primary key, names unique. */
  predicate WellFormedCatalog(catalog: map<int, Character>) {
    && (forall id | id in catalog :: catalog[id].id == id)
    && (forall a, b | a in catalog && b in catalog && catalog[a].name == catalog[b].name :: a == b)
  }

  /** Gacha table: keyed by primary key, names unique. */
  predicate WellFormedGachas(gachas: map<int, Gacha>) {
    && (forall id | id in gachas :: gachas[id].id == id)
    && (forall a, b | a in gachas && b in gachas && gachas[a].name == gachas[b].name :: a == b)
  }

  predicate SamePoolKey(x: PoolRow, y: PoolRow) {
    x.gacha == y.gacha && x.character == y.character
  }

  /** `unique_together = ('gacha', 'character')`. */
  predicate UniquePoolRows(rows: seq<PoolRow>) {
    forall i, j | 0 <= i < j < |rows| :: !SamePoolKey(rows[i], rows[j])
  }

  predicate SameHoldingKey(x: HoldingRow, y: HoldingRow) {
    x.user == y.user && x.character == y.character
  }

  /** `unique_together = ('user', 'character')`. */
  predicate UniqueHoldings(rows: seq<HoldingRow>) {
    forall i, j | 0 <= i < j < |rows| :: !SameHoldingKey(rows[i], rows[j])
  }

  // ----- names and default orderings -----

  /** Code-point lexicographic order, standing in for the database collation. */
  predicate NameLe(a: string, b: string) {
    if |a| == 0 then true
    else if |b| == 0 then false
    else if a[0] != b[0] then a[0] < b[0]
    else NameLe(a[1..], b[1..])
  }

  lemma {:induction false} NameLeTotal(a: string, b: string)
    ensures NameLe(a, b) || NameLe(b, a)
  {
    if |a| > 0 && |b| > 0 && a[0] == b[0] {
      NameLeTotal(a[1..], b[1..]);
    }
  }

  lemma {:induction false} NameLeTransitive(a: string, b: string, c: string)
    requires NameLe(a, b) && NameLe(b, c)
    ensures NameLe(a, c)
  {
    if |a| > 0 && |b| > 0 && |c| > 0 && a[0] == b[0] && b[0] == c[0] {
      NameLeTransitive(a[1..], b[1..], c[1..]);
    }
  }

  lemma {:induction false} NameLeAntisymmetric(a: string, b: string)
    requires NameLe(a, b) && NameLe(b, a)
    ensures a == b
  {
    if |a| > 0 && |b| > 0 {
      NameLeAntisymmetric(a[1..], b[1..]);
      assert a == [a[0]] + a[1..] && b == [b[0]] + b[1..];
    }
  }

  /** Names form a total order: two names that tie are equal. */
  lemma NameOrder()
    ensures TotalPreorder(NameLe) && Antisymmetric(NameLe)
  {
    forall a, b ensures NameLe(a, b) || NameLe(b, a) {
      NameLeTotal(a, b);
    }
    forall a, b, c | NameLe(a, b) && NameLe(b, c) ensures NameLe(a, c) {
      NameLeTransitive(a, b, c);
    }
    forall a, b | NameLe(a, b) && NameLe(b, a) ensures a == b {
      NameLeAntisymmetric(a, b);
    }
  }

  /** Character default ordering: rarity descending, then name ascending. */
  predicate CharacterLe(a: Character, b: Character) {
    a.rarity > b.rarity || (a.rarity == b.rarity && NameLe(a.name, b.name))
  }

  /** The character ordering is a sort order; a tie means same rarity and same name. */
  lemma CharacterOrder()
    ensures TotalPreorder(CharacterLe)
    ensures forall a, b :: CharacterLe(a, b) && CharacterLe(b, a) ==> a.name == b.name && a.rarity == b.rarity
  {
    NameOrder();
  }

  /**
   * Pool default ordering: character rarity ascending (the schema comment
   * says descending, the declared key is ascending), pickup rows first,
   * then character name.
   */
  predicate PoolLe(a: PoolEntry, b: PoolEntry) {
    if a.character.rarity != b.character.rarity then a.character.rarity < b.character.rarity
    else if a.isPickup != b.isPickup then a.isPickup
    else NameLe(a.character.name, b.character.name)
  }

  /** The pool ordering is a sort order; a tie means same rarity, pickup flag and name. */
  lemma PoolOrder()
    ensures TotalPreorder(PoolLe)
    ensures forall a, b :: PoolLe(a, b) && PoolLe(b, a) ==>
      a.character.rarity == b.character.rarity && a.isPickup == b.isPickup && a.character.name == b.character.name
  {
    NameOrder();
  }

  /** The rows of a pool query, in the order the database returns them. */
  function OrderedPool(rows: seq<PoolEntry>): (r: seq<PoolEntry>)
    ensures multiset(r) == multiset(rows)
    ensures forall e :: e in r <==> e in rows
    ensures SortedBy(PoolLe, r)
  {
    PoolOrder();
    var r := Sort(PoolLe, rows);
    assert forall e :: e in r <==> e in multiset(r);
    r
  }
}

=== FILE: pool_editor.dfy ===
/**
 * The character-pool checklist of the gacha creation form: a list of
 * `{character_id, is_pickup}` entries edited by "selected" and "pickup"
 * checkbox events, read back through a status query, and filtered through
 * that query when the form is submitted.
 */
module PoolEditor {
  import opened Wrappers

  datatype Selection = Selection(characterId: int, isPickup: bool)

  /** Which checkbox of a character's row fired. */
  datatype Field = IsSelected | IsPickup

  /** The checkbox state a character's row shows. */
  datatype Status = Status(selected: bool, pickup: bool)

  /** No character twice, and no id that is not a positive database id. */
  predicate Valid(pool: seq<Selection>) {
    && (forall i | 0 <= i < |pool| :: pool[i].characterId > 0)
    && (forall i, j | 0 <= i < j < |pool| :: pool[i].characterId != pool[j].characterId)
  }

  /** `findIndex`: the first position holding the character. */
  function FindIndex(pool: seq<Selection>, id: int): (r: Option<nat>)
    ensures r.Some? ==> r.value < |pool| && pool[r.value].characterId == id
    ensures r.Some? ==> forall j | 0 <= j < r.value :: pool[j].characterId != id
    ensures r.None? <==> forall j | 0 <= j < |pool| :: pool[j].characterId != id
  {
    if |pool| == 0 then None
    else if pool[0].characterId == id then Some(0)
    else match FindIndex(pool[1..], id)
      case None => None
      case Some(k) => Some(k + 1)
  }

  /** `getCharacterStatus`: selected when some entry has the id; its pickup flag, or false. */
  function StatusOf(pool: seq<Selection>, id: int): (s: Status)
    ensures s.selected <==> exists j | 0 <= j < |pool| :: pool[j].characterId == id
    ensures !s.selected ==> !s.pickup
    ensures s.selected && Valid(pool) ==> forall j | 0 <= j < |pool| && pool[j].characterId == id :: s.pickup == pool[j].isPickup
  {
    match FindIndex(pool, id)
    case None => Status(false, false)
    case Some(k) => Status(true, pool[k].isPickup)
  }

  /** The entries of every other character, in order. */
  function Without(pool: seq<Selection>, id: int): seq<Selection>
  {
    if |pool| == 0 then []
    else (if pool[0].characterId == id then [] else [pool[0]]) + Without(pool[1..], id)
  }

  lemma {:induction false} WithoutAppend(a: seq<Selection>, b: seq<Selection>, id: int)
    ensures Without(a + b, id) == Without(a, id) + Without(b, id)
  {
    if |a| > 0 {
      var head := if a[0].characterId == id then [] else [a[0]];
      assert (a + b)[0] == a[0] && (a + b)[1..] == a[1..] + b;
      assert Without(a + b, id) == head + Without(a[1..] + b, id);
      WithoutAppend(a[1..], b, id);
      assert Without(a, id) == head + Without(a[1..], id);
    } else {
      assert a + b == b;
    }
  }

  lemma {:induction false} WithoutAbsent(pool: seq<Selection>, id: int)
    requires forall j | 0 <= j < |pool| :: pool[j].characterId != id
    ensures Without(pool, id) == pool
  {
    if |pool| > 0 {
      WithoutAbsent(pool[1..], id);
      assert pool == [pool[0]] + pool[1..];
    }
  }

  /** Removing, replacing or appending the entry at the id's position leaves every other entry where it was. */
  lemma WithoutAround(pool: seq<Selection>, k: nat, mid: seq<Selection>)
    requires k < |pool|
    requires forall j | 0 <= j < |mid| :: mid[j].characterId == pool[k].characterId
    ensures Without(pool[..k] + mid + pool[k + 1..], pool[k].characterId) == Without(pool, pool[k].characterId)
  {
    var id := pool[k].characterId;
    var pre, rest := pool[..k], pool[k + 1..];
    assert pool == pre + [pool[k]] + rest;
    WithoutSplice(pre, mid, rest, id);
    WithoutSplice(pre, [pool[k]], rest, id);
  }

  /** Entries of `id` spliced between two lists vanish from the filtered list. */
  lemma WithoutSplice(pre: seq<Selection>, mid: seq<Selection>, rest: seq<Selection>, id: int)
    requires forall j | 0 <= j < |mid| :: mid[j].characterId == id
    ensures Without(pre + mid + rest, id) == Without(pre, id) + Without(rest, id)
  {
    WithoutAppend(pre + mid, rest, id);
    WithoutAppend(pre, mid, id);
    WithoutNone(mid, id);
    assert Without(pre + mid, id) == Without(pre, id) + [] == Without(pre, id);
  }

  lemma {:induction false} WithoutNone(pool: seq<Selection>, id: int)
    requires forall j | 0 <= j < |pool| :: pool[j].characterId == id
    ensures Without(pool, id) == []
  {
    if |pool| > 0 {
      WithoutNone(pool[1..], id);
    }
  }

  /**
   * `handleCharacterSelectionChange`. Selecting appends a non-pickup entry
   * for a new positive id; deselecting removes the entry; the pickup box
   * sets the flag of an existing entry, or appends a pickup entry for a
   * new positive id when checked. Everything else is a no-op (a
   * non-positive id is only logged).
   */
  function Change(pool: seq<Selection>, id: int, field: Field, checked: bool): (r: seq<Selection>)
    ensures Valid(pool) ==> Valid(r)
    // only this character's entry is touched, and the others keep their order
    ensures Without(r, id) == Without(pool, id)
    ensures forall x | x != id :: StatusOf(r, x) == StatusOf(pool, x)
    // the row's new state
    ensures field == IsSelected && checked && id > 0 && !StatusOf(pool, id).selected ==> r == pool + [Selection(id, false)]
    ensures field == IsSelected && checked && (id <= 0 || StatusOf(pool, id).selected) ==> r == pool
    ensures field == IsSelected && !checked && FindIndex(pool, id).Some? ==>
      var k := FindIndex(pool, id).value; r == pool[..k] + pool[k + 1..]
    ensures field == IsSelected && !checked && Valid(pool) ==> !StatusOf(r, id).selected && |r| == |pool| - (if StatusOf(pool, id).selected then 1 else 0)
    ensures field == IsPickup && StatusOf(pool, id).selected ==> StatusOf(r, id) == Status(true, checked) && |r| == |pool|
    ensures field == IsPickup && FindIndex(pool, id).Some? ==>
      var k := FindIndex(pool, id).value; r == pool[k := pool[k].(isPickup := checked)]
    ensures field == IsPickup && !StatusOf(pool, id).selected && checked && id > 0 ==> r == pool + [Selection(id, true)]
    ensures field == IsPickup && !StatusOf(pool, id).selected && (!checked || id <= 0) ==> r == pool
  {
    var found := FindIndex(pool, id);
    match field
    case IsSelected =>
      if checked then
        if found.None? && id > 0 then Append(pool, Selection(id, false)) else pool
      else if found.Some? then RemoveAt(pool, found.value)
      else pool
    case IsPickup =>
      if found.Some? then SetPickup(pool, found.value, checked)
      else if checked && id > 0 then Append(pool, Selection(id, true))
      else pool
  }

  /** `remove(index)`: drops one entry. */
  function RemoveAt(pool: seq<Selection>, k: nat): (r: seq<Selection>)
    requires k < |pool|
    ensures r == pool[..k] + pool[k + 1..]
    ensures Without(r, pool[k].characterId) == Without(pool, pool[k].characterId)
    ensures forall x | x != pool[k].characterId :: StatusOf(r, x) == StatusOf(pool, x)
    ensures Valid(pool) ==> Valid(r) && !StatusOf(r, pool[k].characterId).selected
  {
    var id := pool[k].characterId;
    var r := pool[..k] + pool[k + 1..];
    WithoutAround(pool, k, []);
    assert pool[..k] + [] + pool[k + 1..] == r;
    forall x | x != id ensures StatusOf(r, x) == StatusOf(pool, x) {
      StatusKeptOutside(pool, r, id, x);
    }
    RemoveAtValid(pool, k, r);
    r
  }

  /** Removing an entry keeps the list valid and, in a valid list, removes its character entirely. */
  lemma RemoveAtValid(pool: seq<Selection>, k: nat, r: seq<Selection>)
    requires k < |pool| && r == pool[..k] + pool[k + 1..]
    ensures Valid(pool) ==> Valid(r)
    ensures Valid(pool) ==> forall j | 0 <= j < |r| :: r[j].characterId != pool[k].characterId
  {
    assert forall j | 0 <= j < |r| :: r[j] == pool[if j < k then j else j + 1];
  }

  /** `setValue('character_pool.<index>.is_pickup', checked)`. */
  function SetPickup(pool: seq<Selection>, k: nat, checked: bool): (r: seq<Selection>)
    requires k < |pool|
    requires FindIndex(pool, pool[k].characterId) == Some(k)
    ensures |r| == |pool| && r[k] == pool[k].(isPickup := checked)
    ensures Without(r, pool[k].characterId) == Without(pool, pool[k].characterId)
    ensures forall x | x != pool[k].characterId :: StatusOf(r, x) == StatusOf(pool, x)
    ensures StatusOf(r, pool[k].characterId) == Status(true, checked)
    ensures Valid(pool) ==> Valid(r)
  {
    var id := pool[k].characterId;
    var r := pool[k := pool[k].(isPickup := checked)];
    assert r == pool[..k] + [r[k]] + pool[k + 1..];
    WithoutAround(pool, k, [r[k]]);
    forall x | x != id ensures StatusOf(r, x) == StatusOf(pool, x) {
      StatusKeptOutside(pool, r, id, x);
    }
    assert FindIndex(r, id) == Some(k);
    r
  }

  /** Appending a new character's entry. */
  function Append(pool: seq<Selection>, s: Selection): (r: seq<Selection>)
    requires forall j | 0 <= j < |pool| :: pool[j].characterId != s.characterId
    ensures r == pool + [s]
    ensures Valid(pool) && s.characterId > 0 ==> Valid(r)
    ensures StatusOf(r, s.characterId) == Status(true, s.isPickup)
    ensures Without(r, s.characterId) == Without(pool, s.characterId)
    ensures forall x | x != s.characterId :: StatusOf(r, x) == StatusOf(pool, x)
  {
    var r := pool + [s];
    assert r[|pool|].characterId == s.characterId;
    assert FindIndex(r, s.characterId) == Some(|pool|);
    WithoutAppend(pool, [s], s.characterId);
    assert Without([s], s.characterId) == [] by {
      assert [s][1..] == [];
    }
    forall x | x != s.characterId ensures StatusOf(r, x) == StatusOf(pool, x) {
      StatusKeptOutside(pool, r, s.characterId, x);
    }
    r
  }

  /** Two lists that agree once `id` is taken out agree on the status of every other character. */
  lemma StatusKeptOutside(a: seq<Selection>, b: seq<Selection>, id: int, x: int)
    requires Without(a, id) == Without(b, id)
    requires x != id
    ensures StatusOf(a, x) == StatusOf(b, x)
  {
    StatusWithout(a, id, x);
    StatusWithout(b, id, x);
  }

  lemma {:induction false} StatusWithout(pool: seq<Selection>, id: int, x: int)
    requires x != id
    ensures StatusOf(Without(pool, id), x) == StatusOf(pool, x)
  {
    if |pool| > 0 {
      var rest := Without(pool[1..], id);
      if pool[0].characterId == x {
        assert Without(pool, id) == [pool[0]] + rest;
        StatusHead(pool, x);
        StatusHead([pool[0]] + rest, x);
        assert StatusOf(Without(pool, id), x) == StatusOf(pool, x);
      } else {
        StatusWithout(pool[1..], id, x);
        StatusTail(pool, x);
        if pool[0].characterId != id {
          assert Without(pool, id) == [pool[0]] + rest;
          assert ([pool[0]] + rest)[1..] == rest;
          StatusTail([pool[0]] + rest, x);
          assert StatusOf(Without(pool, id), x) == StatusOf(pool, x);
        } else {
          assert Without(pool, id) == rest;
          assert StatusOf(Without(pool, id), x) == StatusOf(pool, x);
        }
      }
    } else {
      assert Without(pool, id) == [];
    }
  }

  lemma StatusHead(pool: seq<Selection>, x: int)
    requires |pool| > 0 && pool[0].characterId == x
    ensures StatusOf(pool, x) == Status(true, pool[0].isPickup)
  {
    assert FindIndex(pool, x) == Some(0);
  }

  lemma StatusTail(pool: seq<Selection>, x: int)
    requires |pool| > 0 && pool[0].characterId != x
    ensures StatusOf(pool, x) == StatusOf(pool[1..], x)
  {
    match FindIndex(pool[1..], x)
    case None =>
    case Some(k) => assert FindIndex(pool, x) == Some(k + 1);
  }

  /** One checkbox event. */
  datatype Event = Event(id: int, field: Field, checked: bool)

  /** The list after a run of events. */
  function Replay(pool: seq<Selection>, events: seq<Event>): seq<Selection>
    decreases |events|
  {
    if |events| == 0 then pool
    else Replay(Change(pool, events[0].id, events[0].field, events[0].checked), events[1..])
  }

  /** Starting from the empty list, no sequence of events yields a duplicate or a non-positive id. */
  lemma {:induction false} ReplayKeepsValid(pool: seq<Selection>, events: seq<Event>)
    requires Valid(pool)
    ensures Valid(Replay(pool, events))
    decreases |events|
  {
    if |events| > 0 {
      ReplayKeepsValid(Change(pool, events[0].id, events[0].field, events[0].checked), events[1..]);
    }
  }

  /** The submit-time filter: keep an entry when the status query reports its character selected. */
  function KeepSelected(items: seq<Selection>, pool: seq<Selection>): (r: seq<Selection>)
    ensures forall x :: x in r ==> x in items
  {
    if |items| == 0 then []
    else (if StatusOf(pool, items[0].characterId).selected then [items[0]] else []) + KeepSelected(items[1..], pool)
  }

  /** Every entry of the list finds itself, so the submit-time filter returns the list unchanged. */
  lemma {:induction false} KeepSelectedIsIdentity(items: seq<Selection>, pool: seq<Selection>)
    requires forall j | 0 <= j < |items| :: items[j] in pool
    ensures KeepSelected(items, pool) == items
  {
    if |items| > 0 {
      var j :| 0 <= j < |pool| && pool[j] == items[0];
      assert StatusOf(pool, items[0].characterId).selected;
      KeepSelectedIsIdentity(items[1..], pool);
      assert items == [items[0]] + items[1..];
    }
  }

  /** The pool sent with the form: every entry of the list, whatever the events were. */
  function SubmittedPool(pool: seq<Selection>): (r: seq<Selection>)
    ensures r == pool
  {
    KeepSelectedIsIdentity(pool, pool);
    KeepSelected(pool, pool)
  }
}

=== FILE: pull.dfy ===
/**
 * The pull action of the gacha view set: request checks in source order, a
 * two-stage weighted draw repeated `pull_count` times, and an all-or-nothing
 * commit of holdings and history. The clock reading and the random draws
 * are inputs; the result carries the ledger after the request.
 */
module Pull {
  import opened Wrappers
  import opened Models
  import opened Selection
  import opened Rates
  import opened Holdings
  import Decimal

  /** The JSON value sent as `pull_count` (absent, an integer, a boolean, or anything else). */
  datatype PullCountField = Absent | IntValue(n: int) | BoolValue(b: bool) | OtherValue

  /**
   * `request.data.get('pull_count', 1)` accepted when it is a positive
   * Python int. A JSON `true` is a Python bool, which is an int equal to 1.
   */
  function PullCount(f: PullCountField): (r: Option<nat>)
    ensures r.Some? ==> r.value > 0
  {
    match f
    case Absent => Some(1)
    case IntValue(n) => if n > 0 then Some(n) else None
    case BoolValue(b) => if b then Some(1) else None
    case OtherValue => None
  }

  datatype PullError =
    | InvalidPullCount
    | NotStarted
    | Ended
    | NoRates
    | MalformedRates
    | EmptyPool
    | NoEligibleCharacter(rarity: int)  // the drawn rarity has no pool character
    | PullFailed                        // an exception inside the transaction

  /** HTTP status of each rejection: request problems are 400, failures inside the transaction 500. */
  function StatusCode(e: PullError): (code: int)
    ensures code == 400 <==> !(e.NoEligibleCharacter? || e.PullFailed?)
    ensures code == 400 || code == 500
  {
    match e
    case NoEligibleCharacter(_) => 500
    case PullFailed => 500
    case _ => 400
  }

  /** The running window: both bounds inclusive, a null bound imposes nothing. */
  function WindowError(g: Gacha, now: int): (r: Option<PullError>)
    ensures r.None? <==> (g.startDate.None? || g.startDate.value <= now) && (g.endDate.None? || now <= g.endDate.value)
    ensures r == Some(NotStarted) <==> g.startDate.Some? && now < g.startDate.value
  {
    if g.startDate.Some? && now < g.startDate.value then Some(NotStarted)
    else if g.endDate.Some? && now > g.endDate.value then Some(Ended)
    else None
  }

  /** Two raw random values per draw: one for the rarity, one for the character. */
  datatype Roll = Roll(rarity: nat, character: nat)

  /** Weight of a pool entry inside its rarity. */
  const PickupMultiplier: nat := 3

  function EntryWeight(e: PoolEntry): nat {
    if e.isPickup then PickupMultiplier else 1
  }

  /** The pool entries of one rarity, in pool order. */
  function Eligible(pool: seq<PoolEntry>, rarity: int): (r: seq<PoolEntry>)
    ensures forall e :: e in r <==> e in pool && e.character.rarity == rarity
  {
    if |pool| == 0 then []
    else
      assert pool == [pool[0]] + pool[1..];
      (if pool[0].character.rarity == rarity then [pool[0]] else []) + Eligible(pool[1..], rarity)
  }

  function Weights(entries: seq<PoolEntry>): (w: seq<nat>)
    ensures |w| == |entries|
    ensures forall i | 0 <= i < |entries| :: w[i] == EntryWeight(entries[i])
    ensures Total(w) >= |entries|
  {
    if |entries| == 0 then [] else [EntryWeight(entries[0])] + Weights(entries[1..])
  }

  /**
   * Inside a rarity a pickup entry is selected by three times as many
   * character rolls as a regular one: a fixed multiplier, whatever the
   * number of pickup entries.
   */
  lemma PickupWeighting(entries: seq<PoolEntry>, j: nat)
    requires j < |entries|
    ensures |Winners(Weights(entries), j)| == if entries[j].isPickup then 3 else 1
  {
    PickCount(Weights(entries), j);
  }

  /**
   * The character roll selects `c` among the pool entries of `c`'s rarity,
   * taken in pool order: `c` is the entry whose cumulative-weight interval
   * holds the roll reduced modulo the rarity's total weight.
   */
  predicate Selects(pool: seq<PoolEntry>, roll: Roll, c: Character) {
    var el := Eligible(pool, c.rarity);
    var w := Weights(el);
    Total(w) > 0 && exists j | 0 <= j < |el| :: el[j].character == c && Wins(w, j, roll.character % Total(w))
  }

  /**
   * What one roll draws from the pool rows: a pool character, of the rarity
   * the rarity roll selects from the rate table, and the entry the character
   * roll selects among that rarity's rows in their stored order.
   */
  predicate DrawnBy(poolRows: seq<PoolEntry>, items: seq<RateItem>, roll: Roll, c: Character) {
    && (exists e :: e in poolRows && e.character == c)
    && DrawnRarity(items, roll.rarity) == Some(c.rarity)
    && Selects(OrderedPool(poolRows), roll, c)
  }

  /** One iteration of the draw loop: a rarity from the rate table, then a character of that rarity. */
  function DrawOne(keys: seq<int>, rates: seq<nat>, pool: seq<PoolEntry>, roll: Roll): (r: Result<Character, PullError>)
    requires |keys| == |rates| && Total(rates) > 0
    ensures var rarity := keys[Pick(rates, roll.rarity % Total(rates))];
      && (r.Ok? <==> exists e :: e in pool && e.character.rarity == rarity)
      && (r.Err? ==> r.error == NoEligibleCharacter(rarity))
      && (r.Ok? ==> r.value.rarity == rarity && exists e :: e in pool && e.character == r.value)
    ensures r.Ok? ==> Selects(pool, roll, r.value)
  {
    var rarity := keys[Pick(rates, roll.rarity % Total(rates))];
    var eligible := Eligible(pool, rarity);
    if |eligible| == 0 then
      Err(NoEligibleCharacter(rarity))
    else
      var w := Weights(eligible);
      var j := Pick(w, roll.character % Total(w));
      var chosen := eligible[j];
      assert chosen in eligible;
      assert eligible[j].character == chosen.character && Wins(w, j, roll.character % Total(w));
      Ok(chosen.character)
  }

  /**
   * Runs steps in order and stops at the first failure: the values of all
   * steps when every one succeeds, otherwise the earliest error.
   */
  function Collect<T, E>(steps: seq<Result<T, E>>): (r: Result<seq<T>, E>)
    ensures r.Ok? <==> forall i | 0 <= i < |steps| :: steps[i].Ok?
    ensures r.Ok? ==> |r.value| == |steps| && forall i | 0 <= i < |steps| :: steps[i] == Ok(r.value[i])
  {
    if |steps| == 0 then Ok([])
    else match steps[0]
      case Err(e) => Err(e)
      case Ok(v) =>
        match Collect(steps[1..])
        case Err(e) =>
          assert !steps[1..][FirstFailure(steps[1..])].Ok?;
          Err(e)
        case Ok(later) =>
          assert forall i | 1 <= i < |steps| :: steps[i] == steps[1..][i - 1];
          Ok([v] + later)
  }

  /** The index of the first failing step, or the number of steps when none fails. */
  function FirstFailure<T, E>(steps: seq<Result<T, E>>): (k: nat)
    ensures k <= |steps|
    ensures forall j | 0 <= j < k :: steps[j].Ok?
    ensures k < |steps| ==> steps[k].Err?
  {
    if |steps| == 0 || steps[0].Err? then 0 else 1 + FirstFailure(steps[1..])
  }

  /** A failed loop reports the error of its first failing iteration. */
  lemma {:induction false} CollectFirstError<T, E>(steps: seq<Result<T, E>>)
    ensures Collect(steps).Err? ==> var k := FirstFailure(steps);
      k < |steps| && steps[k] == Err(Collect(steps).error)
  {
    if |steps| > 0 && steps[0].Ok? {
      CollectFirstError(steps[1..]);
    }
  }

  /** The `n` iterations of the draw loop, the i-th using `rolls(i)`. */
  function Draws(keys: seq<int>, rates: seq<nat>, pool: seq<PoolEntry>, rolls: nat -> Roll, n: nat): (r: Result<seq<Character>, PullError>)
    requires |keys| == |rates| && Total(rates) > 0
  {
    Collect(seq(n, i requires 0 <= i < n => DrawOne(keys, rates, pool, rolls(i))))
  }

  /** Each successful draw loop over the stored pool order yields, roll by roll, what that roll draws. */
  lemma DrawsSound(keys: seq<int>, rates: seq<nat>, items: seq<RateItem>, poolRows: seq<PoolEntry>, rolls: nat -> Roll, n: nat)
    requires RarityKeys(items) == Some(keys) && RateValues(items) == Some(rates) && Total(rates) > 0
    ensures Draws(keys, rates, OrderedPool(poolRows), rolls, n).Ok? ==> var pulled := Draws(keys, rates, OrderedPool(poolRows), rolls, n).value;
      && |pulled| == n
      && (forall i | 0 <= i < n :: DrawnBy(poolRows, items, rolls(i), pulled[i]))
  {
    var pool := OrderedPool(poolRows);
    var steps := seq(n, i requires 0 <= i < n => DrawOne(keys, rates, pool, rolls(i)));
    var r := Draws(keys, rates, pool, rolls, n);
    if r.Ok? {
      forall i | 0 <= i < n
        ensures DrawnBy(poolRows, items, rolls(i), r.value[i])
      {
        assert steps[i] == Ok(r.value[i]);
        DrawOneSound(keys, rates, items, poolRows, rolls(i));
      }
    }
  }

  /** A successful iteration of the draw loop yields what its roll draws. */
  lemma DrawOneSound(keys: seq<int>, rates: seq<nat>, items: seq<RateItem>, poolRows: seq<PoolEntry>, roll: Roll)
    requires RarityKeys(items) == Some(keys) && RateValues(items) == Some(rates) && Total(rates) > 0
    ensures var d := DrawOne(keys, rates, OrderedPool(poolRows), roll);
      d.Ok? ==> DrawnBy(poolRows, items, roll, d.value)
  {
    var d := DrawOne(keys, rates, OrderedPool(poolRows), roll);
    if d.Ok? {
      var e :| e in OrderedPool(poolRows) && e.character == d.value;
      assert e in poolRows;
    }
  }

  /** What the pull may write: the holdings rows and the pull history. */
  datatype Ledger = Ledger(holdings: seq<HoldingRow>, history: seq<HistoryRecord>)

  datatype PullResponse = PullResponse(outcome: Result<seq<Character>, PullError>, rateWarning: bool, ledger: Ledger)

  function CharacterIds(cs: seq<Character>): (ids: seq<int>)
    ensures |ids| == |cs| && forall i | 0 <= i < |cs| :: ids[i] == cs[i].id
  {
    seq(|cs|, i requires 0 <= i < |cs| => cs[i].id)
  }

  /** The history rows of one pull, one per pulled character, in draw order. */
  function HistoryFor(user: int, gacha: int, pulled: seq<Character>, now: int): (rs: seq<HistoryRecord>)
    ensures |rs| == |pulled|
  {
    seq(|pulled|, i requires 0 <= i < |pulled| => HistoryRecord(user, gacha, pulled[i].id, now))
  }

  /** The writes of the transaction: a copy credited and a history row appended per pulled character. */
  function Commit(ledger: Ledger, user: int, gacha: int, pulled: seq<Character>, now: int): Ledger {
    Ledger(CreditAll(ledger.holdings, user, CharacterIds(pulled)), ledger.history + HistoryFor(user, gacha, pulled, now))
  }

  /**
   * What a committed pull leaves behind: the earlier history intact with one
   * row per pulled character appended in draw order, and each of the user's
   * holdings raised by the number of times its character was pulled, the
   * (user, character) key still unique.
   */
  ghost predicate Commits(before: Ledger, after: Ledger, user: int, gacha: int, pulled: seq<Character>, now: int) {
    && |after.history| == |before.history| + |pulled|
    && after.history[..|before.history|] == before.history
    && (forall i | 0 <= i < |pulled| :: after.history[|before.history| + i] == HistoryRecord(user, gacha, pulled[i].id, now))
    && (forall u, c :: Quantity(after.holdings, u, c) ==
          Quantity(before.holdings, u, c) + (if u == user then multiset(CharacterIds(pulled))[c] else 0))
    && (UniqueHoldings(before.holdings) ==> UniqueHoldings(after.holdings))
  }

  /** The writes of the transaction have exactly the committed effect. */
  lemma CommitEffect(ledger: Ledger, user: int, gacha: int, pulled: seq<Character>, now: int)
    ensures Commits(ledger, Commit(ledger, user, gacha, pulled, now), user, gacha, pulled, now)
  {
    var after := Commit(ledger, user, gacha, pulled, now);
    assert after.history == ledger.history + HistoryFor(user, gacha, pulled, now);
  }

  function Reject(e: PullError, warn: bool, ledger: Ledger): PullResponse {
    PullResponse(Err(e), warn, ledger)
  }

  /**
   * The checks `pull` makes before the transaction, in source order: the
   * count, the window, the presence and readability of the rates, the pool.
   */
  function Guard(gacha: Gacha, poolRows: seq<PoolEntry>, now: int, count: PullCountField): (r: Option<PullError>)
    ensures PullCount(count).None? ==> r == Some(InvalidPullCount)
    ensures PullCount(count).Some? && WindowError(gacha, now).Some? ==> r == WindowError(gacha, now)
    ensures PullCount(count).Some? && WindowError(gacha, now).None? && |gacha.rarityRates| == 0
      ==> r == Some(NoRates)
    ensures PullCount(count).Some? && WindowError(gacha, now).None? && |gacha.rarityRates| > 0
              && RateValues(gacha.rarityRates).None?
      ==> r == Some(MalformedRates)
    ensures PullCount(count).Some? && WindowError(gacha, now).None? && |gacha.rarityRates| > 0
              && RateValues(gacha.rarityRates).Some? && |poolRows| == 0
      ==> r == Some(EmptyPool)
    ensures r.None? <==> PullCount(count).Some? && WindowError(gacha, now).None? && |gacha.rarityRates| > 0
                          && RateValues(gacha.rarityRates).Some? && |poolRows| > 0
  {
    if PullCount(count).None? then Some(InvalidPullCount)
    else if WindowError(gacha, now).Some? then WindowError(gacha, now)
    else if |gacha.rarityRates| == 0 then Some(NoRates)
    else if RateValues(gacha.rarityRates).None? then Some(MalformedRates)
    else if |poolRows| == 0 then Some(EmptyPool)
    else None
  }

  /**
   * `GachaViewSet.pull`. `poolRows` are the gacha's pool rows joined with
   * their characters, in any order; `writesFail` says whether the database
   * raises while the transaction writes.
   */
  function Pull(user: int, gacha: Gacha, poolRows: seq<PoolEntry>, now: int, count: PullCountField,
                rolls: nat -> Roll, writesFail: bool, ledger: Ledger): (resp: PullResponse)
    // fail closed: a rejected pull writes nothing
    ensures resp.outcome.Err? ==> resp.ledger == ledger
    // guards, in source order, each before any draw or write
    ensures Guard(gacha, poolRows, now, count).Some? ==> resp.outcome == Err(Guard(gacha, poolRows, now, count).value)
    // after the guards, a failure answers 500: the transaction raised, or a roll's rarity is not stocked
    ensures Guard(gacha, poolRows, now, count).None? && resp.outcome.Err? ==>
      && StatusCode(resp.outcome.error) == 500
      && (|| resp.outcome.error == PullFailed
          || (resp.outcome.error.NoEligibleCharacter? &&
              FirstUncovered(poolRows, gacha.rarityRates, rolls, PullCount(count).value, resp.outcome.error.rarity)))
    // the tolerance band only warns
    ensures resp.rateWarning ==> RateValues(gacha.rarityRates).Some? && !WithinTolerance(Total(RateValues(gacha.rarityRates).value))
    // success: `pull_count` characters, each from the pool, of the rarity its rarity roll selected,
    // and the entry its character roll selects among that rarity's pool rows in pool order
    ensures resp.outcome.Ok? ==> var pulled := resp.outcome.value;
      && PullCount(count) == Some(|pulled|)
      && (forall i | 0 <= i < |pulled| :: DrawnBy(poolRows, gacha.rarityRates, rolls(i), pulled[i]))
    // success: the writes of the transaction are committed
    ensures resp.outcome.Ok? ==> Commits(ledger, resp.ledger, user, gacha.id, resp.outcome.value, now)
  {
    // the warning is logged once the rates have been read, whatever follows
    var warn := PullCount(count).Some? && WindowError(gacha, now).None? && |gacha.rarityRates| > 0
                && RateValues(gacha.rarityRates).Some? && !WithinTolerance(Total(RateValues(gacha.rarityRates).value));
    match Guard(gacha, poolRows, now, count)
    case Some(e) => Reject(e, warn, ledger)
    case None =>
      Draw(user, gacha, poolRows, now, PullCount(count).value, RateValues(gacha.rarityRates).value,
           rolls, writesFail, ledger, warn)
  }

  /** The stored configuration can be drawn from at all: keys present, rates readable, total positive. */
  predicate Drawable(items: seq<RateItem>) {
    RarityKeys(items).Some? && RateValues(items).Some? && Total(RateValues(items).value) > 0
  }

  /** The roll selects a rarity the pool has a character of. */
  predicate Covered(pool: seq<PoolEntry>, items: seq<RateItem>, roll: Roll) {
    exists e :: e in pool && DrawnRarity(items, roll.rarity) == Some(e.character.rarity)
  }

  /** The first `n` rolls each select a rarity the pool has a character of. */
  predicate Covers(pool: seq<PoolEntry>, items: seq<RateItem>, rolls: nat -> Roll, n: nat) {
    forall i | 0 <= i < n :: Covered(pool, items, rolls(i))
  }

  /** Whether the rolls are covered depends only on which entries the pool holds, not on their order. */
  lemma CoversSameMembers(pool: seq<PoolEntry>, poolRows: seq<PoolEntry>, items: seq<RateItem>, rolls: nat -> Roll, n: nat)
    requires forall e :: e in pool <==> e in poolRows
    ensures Covers(pool, items, rolls, n) <==> Covers(poolRows, items, rolls, n)
  {
    forall roll ensures Covered(pool, items, roll) <==> Covered(poolRows, items, roll) {
      CoveredSameMembers(pool, poolRows, items, roll);
    }
  }

  /** Whether one roll is covered depends only on which entries the pool holds. */
  lemma CoveredSameMembers(pool: seq<PoolEntry>, poolRows: seq<PoolEntry>, items: seq<RateItem>, roll: Roll)
    requires forall e :: e in pool <==> e in poolRows
    ensures Covered(pool, items, roll) <==> Covered(poolRows, items, roll)
  {
    if Covered(pool, items, roll) {
      var e :| e in pool && DrawnRarity(items, roll.rarity) == Some(e.character.rarity);
      assert e in poolRows;
    }
    if Covered(poolRows, items, roll) {
      var e :| e in poolRows && DrawnRarity(items, roll.rarity) == Some(e.character.rarity);
      assert e in pool;
    }
  }

  /**
   * Roll `k` is the first of the `n` rolls whose rarity the pool rows do not
   * stock, and it selects `rarity`.
   */
  predicate FirstUncovered(poolRows: seq<PoolEntry>, items: seq<RateItem>, rolls: nat -> Roll, n: nat, rarity: int) {
    exists k | 0 <= k < n ::
      && (forall j | 0 <= j < k :: Covered(poolRows, items, rolls(j)))
      && !Covered(poolRows, items, rolls(k))
      && DrawnRarity(items, rolls(k).rarity) == Some(rarity)
  }

  /** One draw over the stored pool order: it succeeds exactly when its roll is covered, and otherwise names the rarity the roll selects. */
  lemma DrawOneRows(keys: seq<int>, rates: seq<nat>, items: seq<RateItem>, poolRows: seq<PoolEntry>, roll: Roll)
    requires RarityKeys(items) == Some(keys) && RateValues(items) == Some(rates) && Total(rates) > 0
    ensures var d := DrawOne(keys, rates, OrderedPool(poolRows), roll);
      && (d.Ok? <==> Covered(poolRows, items, roll))
      && (d.Err? ==> DrawnRarity(items, roll.rarity) == Some(d.error.rarity) && d.error.NoEligibleCharacter?)
  {
    DrawOneOkIff(keys, rates, items, OrderedPool(poolRows), roll);
    CoveredSameMembers(OrderedPool(poolRows), poolRows, items, roll);
    assert DrawnRarity(items, roll.rarity) == Some(keys[Pick(rates, roll.rarity % Total(rates))]);
  }

  /** A failed draw loop reports the rarity of the first roll the pool rows do not cover. */
  lemma DrawsFirstError(keys: seq<int>, rates: seq<nat>, items: seq<RateItem>, poolRows: seq<PoolEntry>, rolls: nat -> Roll, n: nat)
    requires RarityKeys(items) == Some(keys) && RateValues(items) == Some(rates) && Total(rates) > 0
    ensures var r := Draws(keys, rates, OrderedPool(poolRows), rolls, n);
      r.Err? ==> r.error.NoEligibleCharacter? && FirstUncovered(poolRows, items, rolls, n, r.error.rarity)
  {
    var pool := OrderedPool(poolRows);
    var steps := seq(n, i requires 0 <= i < n => DrawOne(keys, rates, pool, rolls(i)));
    var r := Draws(keys, rates, pool, rolls, n);
    if r.Err? {
      CollectFirstError(steps);
      var k := FirstFailure(steps);
      assert steps[k] == Err(r.error);
      DrawOneRows(keys, rates, items, poolRows, rolls(k));
      forall j | 0 <= j < k ensures Covered(poolRows, items, rolls(j)) {
        assert steps[j].Ok?;
        DrawOneRows(keys, rates, items, poolRows, rolls(j));
      }
      assert !Covered(poolRows, items, rolls(k)) && DrawnRarity(items, rolls(k).rarity) == Some(r.error.rarity);
    }
  }

  /** Exactly when the draw loop and the writes succeed. */
  lemma DrawSucceedsIff(user: int, gacha: Gacha, poolRows: seq<PoolEntry>, now: int, n: nat, rates: seq<nat>,
                        rolls: nat -> Roll, writesFail: bool, ledger: Ledger, warn: bool)
    requires RateValues(gacha.rarityRates) == Some(rates)
    ensures Draw(user, gacha, poolRows, now, n, rates, rolls, writesFail, ledger, warn).outcome.Ok? <==>
      && Drawable(gacha.rarityRates)
      && Covers(poolRows, gacha.rarityRates, rolls, n)
      && !writesFail
  {
    var items := gacha.rarityRates;
    var pool := OrderedPool(poolRows);
    if Drawable(items) {
      DrawsOkIff(RarityKeys(items).value, rates, items, pool, rolls, n);
      CoversSameMembers(pool, poolRows, items, rolls, n);
    }
  }

  /** The draw loop completes exactly when every roll's rarity has a pool character. */
  lemma DrawsOkIff(keys: seq<int>, rates: seq<nat>, items: seq<RateItem>, pool: seq<PoolEntry>, rolls: nat -> Roll, n: nat)
    requires RarityKeys(items) == Some(keys) && RateValues(items) == Some(rates) && Total(rates) > 0
    ensures Draws(keys, rates, pool, rolls, n).Ok? <==> Covers(pool, items, rolls, n)
  {
    var steps := seq(n, i requires 0 <= i < n => DrawOne(keys, rates, pool, rolls(i)));
    forall i | 0 <= i < n ensures steps[i].Ok? <==> Covered(pool, items, rolls(i)) {
      DrawOneOkIff(keys, rates, items, pool, rolls(i));
    }
  }

  /** One draw finds a character exactly when the pool has one of the rarity its roll selects. */
  lemma DrawOneOkIff(keys: seq<int>, rates: seq<nat>, items: seq<RateItem>, pool: seq<PoolEntry>, roll: Roll)
    requires RarityKeys(items) == Some(keys) && RateValues(items) == Some(rates) && Total(rates) > 0
    ensures DrawOne(keys, rates, pool, roll).Ok? <==> Covered(pool, items, roll)
  {
    assert DrawnRarity(items, roll.rarity) == Some(keys[Pick(rates, roll.rarity % Total(rates))]);
  }

  /**
   * Exactly when a pull succeeds. The rate-total tolerance is absent from
   * the condition: a total outside [0.999, 1.001] never rejects.
   */
  lemma PullSucceedsIff(user: int, gacha: Gacha, poolRows: seq<PoolEntry>, now: int, count: PullCountField,
                        rolls: nat -> Roll, writesFail: bool, ledger: Ledger)
    ensures Pull(user, gacha, poolRows, now, count, rolls, writesFail, ledger).outcome.Ok? <==>
      && PullCount(count).Some?
      && WindowError(gacha, now).None?
      && |gacha.rarityRates| > 0
      && |poolRows| > 0
      && Drawable(gacha.rarityRates)
      && Covers(poolRows, gacha.rarityRates, rolls, PullCount(count).value)
      && !writesFail
  {
    var items := gacha.rarityRates;
    if PullCount(count).Some? && WindowError(gacha, now).None? && |items| > 0 && |poolRows| > 0 && RateValues(items).Some? {
      var rates := RateValues(items).value;
      PullIsDraw(user, gacha, poolRows, now, count, rolls, writesFail, ledger);
      DrawSucceedsIff(user, gacha, poolRows, now, PullCount(count).value, rates, rolls, writesFail, ledger,
                      !WithinTolerance(Total(rates)));
    }
  }

  /** Once every guard passes, the pull is the transaction. */
  lemma PullIsDraw(user: int, gacha: Gacha, poolRows: seq<PoolEntry>, now: int, count: PullCountField,
                   rolls: nat -> Roll, writesFail: bool, ledger: Ledger)
    requires PullCount(count).Some? && WindowError(gacha, now).None? && |gacha.rarityRates| > 0 && |poolRows| > 0
    requires RateValues(gacha.rarityRates).Some?
    ensures var rates := RateValues(gacha.rarityRates).value;
      Pull(user, gacha, poolRows, now, count, rolls, writesFail, ledger)
        == Draw(user, gacha, poolRows, now, PullCount(count).value, rates, rolls, writesFail, ledger,
                !WithinTolerance(Total(rates)))
  {
  }

  /** The warning is raised exactly when the readable rates total outside the band. */
  lemma RateWarningIff(user: int, gacha: Gacha, poolRows: seq<PoolEntry>, now: int, count: PullCountField,
                       rolls: nat -> Roll, writesFail: bool, ledger: Ledger)
    ensures Pull(user, gacha, poolRows, now, count, rolls, writesFail, ledger).rateWarning <==>
      && PullCount(count).Some?
      && WindowError(gacha, now).None?
      && |gacha.rarityRates| > 0
      && RateValues(gacha.rarityRates).Some?
      && !WithinTolerance(Total(RateValues(gacha.rarityRates).value))
  {
  }

  /**
   * The transaction, on the pool rows in their stored order: every draw
   * first, then every write; any failure rolls all of it back.
   */
  function Draw(user: int, gacha: Gacha, poolRows: seq<PoolEntry>, now: int, n: nat, rates: seq<nat>,
                rolls: nat -> Roll, writesFail: bool, ledger: Ledger, warn: bool): (resp: PullResponse)
    requires RateValues(gacha.rarityRates) == Some(rates)
    ensures resp.rateWarning == warn
    ensures resp.outcome.Err? ==> resp.ledger == ledger
    // a failure is the exception inside the transaction, or the first roll whose rarity is not stocked
    ensures resp.outcome.Err? ==>
      || resp.outcome.error == PullFailed
      || (resp.outcome.error.NoEligibleCharacter? && FirstUncovered(poolRows, gacha.rarityRates, rolls, n, resp.outcome.error.rarity))
    ensures resp.outcome.Ok? ==> var pulled := resp.outcome.value;
      && |pulled| == n
      && (forall i | 0 <= i < |pulled| :: DrawnBy(poolRows, gacha.rarityRates, rolls(i), pulled[i]))
      && Commits(ledger, resp.ledger, user, gacha.id, pulled, now)
  {
    var pool := OrderedPool(poolRows);
    match RarityKeys(gacha.rarityRates)
    // `item['rarity']` raises KeyError on the first iteration
    case None => Reject(PullFailed, warn, ledger)
    case Some(keys) =>
      // `random.choices` raises ValueError when the weights total zero (Python 3.9 or later)
      if Total(rates) == 0 then Reject(PullFailed, warn, ledger)
      else match Draws(keys, rates, pool, rolls, n)
        case Err(e) =>
          DrawsFirstError(keys, rates, gacha.rarityRates, poolRows, rolls, n);
          Reject(e, warn, ledger)
        case Ok(pulled) =>
          DrawsSound(keys, rates, gacha.rarityRates, poolRows, rolls, n);
          if writesFail then Reject(PullFailed, warn, ledger)
          else
            CommitEffect(ledger, user, gacha.id, pulled, now);
            PullResponse(Ok(pulled), warn, Commit(ledger, user, gacha.id, pulled, now))
  }
}

=== FILE: rates.dfy ===
/**
 * The stored rarity-rate table as the pull reads it: each item's `rate`
 * string is read as a Decimal, the total is compared with the tolerance
 * band, and the `rarity` keys become the population of the first draw.
 */
module Rates {
  import opened Wrappers
  import opened Models
  import opened Decimal
  import opened Selection

  /** The item has a `rate` key whose text reads as a Decimal. */
  predicate RateParses(item: RateItem) {
    item.rate.Some? && ParseFixed4(item.rate.value).Some?
  }

  /**
   * Every item's rate in ten-thousandths, or `None` when some item lacks a
   * rate or its rate does not parse (the `KeyError` / `InvalidOperation`
   * branch).
   */
  function RateValues(items: seq<RateItem>): (r: Option<seq<nat>>)
    ensures r.Some? <==> forall i | 0 <= i < |items| :: RateParses(items[i])
    ensures r.Some? ==> |r.value| == |items|
    ensures r.Some? ==> forall i | 0 <= i < |items| :: ParseFixed4(items[i].rate.value) == Some(r.value[i])
  {
    if |items| == 0 then Some([])
    else if !RateParses(items[0]) then None
    else match RateValues(items[1..])
      case None => None
      case Some(rest) => Some([ParseFixed4(items[0].rate.value).value] + rest)
  }

  /** `Decimal('0.999')` and `Decimal('1.001')` in ten-thousandths. */
  const MinTotal: nat := 9990
  const MaxTotal: nat := 10010

  /** A total inside the band draws no warning. */
  predicate WithinTolerance(total: nat) {
    MinTotal <= total <= MaxTotal
  }

  /** The `rarity` of every item, or `None` when some item lacks the key. */
  function RarityKeys(items: seq<RateItem>): (r: Option<seq<int>>)
    ensures r.Some? <==> forall i | 0 <= i < |items| :: items[i].rarity.Some?
    ensures r.Some? ==> |r.value| == |items|
    ensures r.Some? ==> forall i | 0 <= i < |items| :: items[i].rarity == Some(r.value[i])
  {
    if |items| == 0 then Some([])
    else if items[0].rarity.None? then None
    else match RarityKeys(items[1..])
      case None => None
      case Some(rest) => Some([items[0].rarity.value] + rest)
  }

  /**
   * The rarity a rarity roll selects from the table, when the table can be
   * drawn from: every item has a rarity and a readable rate, and the rates
   * do not total zero.
   */
  function DrawnRarity(items: seq<RateItem>, roll: nat): (r: Option<int>)
    ensures r.Some? ==> exists i | 0 <= i < |items| :: items[i].rarity == r && RateParses(items[i]) && ParseFixed4(items[i].rate.value).value > 0
  {
    match (RarityKeys(items), RateValues(items))
    case (Some(keys), Some(rates)) =>
      if Total(rates) == 0 then None
      else
        var i := Pick(rates, roll % Total(rates));
        ZeroWeightNeverPicked(rates, roll % Total(rates));
        Some(keys[i])
    case _ => None
  }
}

=== FILE: selection.dfy ===
/**
 * Weighted choice as Python's `random.choices(population, weights, k=1)`
 * performs it: the weights are accumulated, a point is drawn in
 * [0, total) and the first item whose cumulative weight exceeds the point
 * wins. The point is supplied as a natural number, so item i wins exactly
 * the integers of [Prefix(i), Prefix(i + 1)).
 */
module Selection {

  /** Sum of all weights. */
  function Total(w: seq<nat>): nat {
    if |w| == 0 then 0 else w[0] + Total(w[1..])
  }

  /** Sum of the first `i` weights: the lower edge of item i's interval. */
  function Prefix(w: seq<nat>, i: nat): nat
    requires i <= |w|
  {
    if i == 0 then 0 else w[0] + Prefix(w[1..], i - 1)
  }

  lemma {:induction false} PrefixStep(w: seq<nat>, i: nat)
    requires i < |w|
    ensures Prefix(w, i + 1) == Prefix(w, i) + w[i]
  {
    if i > 0 {
      PrefixStep(w[1..], i - 1);
    }
  }

  lemma {:induction false} PrefixAll(w: seq<nat>)
    ensures Prefix(w, |w|) == Total(w)
  {
    if |w| > 0 {
      PrefixAll(w[1..]);
    }
  }

  lemma {:induction false} PrefixMonotone(w: seq<nat>, i: nat, j: nat)
    requires i <= j <= |w|
    ensures Prefix(w, i) <= Prefix(w, j)
  {
    if i > 0 {
      PrefixMonotone(w[1..], i - 1, j - 1);
    }
  }

  /** Item i's interval [Prefix(i), Prefix(i + 1)) contains the point r. */
  predicate Wins(w: seq<nat>, i: nat, r: nat) {
    i < |w| && Prefix(w, i) <= r < Prefix(w, i + 1)
  }

  /** The item selected by the point `r`. */
  function Pick(w: seq<nat>, r: nat): (i: nat)
    requires r < Total(w)
    ensures Wins(w, i, r)
  {
    if r < w[0] then 0 else 1 + Pick(w[1..], r - w[0])
  }

  /** The intervals are disjoint: a point selects at most one item. */
  lemma WinnerUnique(w: seq<nat>, i: nat, j: nat, r: nat)
    requires Wins(w, i, r) && Wins(w, j, r)
    ensures i == j
  {
    if i < j {
      PrefixMonotone(w, i + 1, j);
    } else if j < i {
      PrefixMonotone(w, j + 1, i);
    }
  }

  /** Every point below the total selects some item: the intervals cover [0, total). */
  lemma PickIsWinner(w: seq<nat>, i: nat, r: nat)
    requires r < Total(w)
    ensures Wins(w, i, r) <==> Pick(w, r) == i
  {
    if Wins(w, i, r) {
      WinnerUnique(w, i, Pick(w, r), r);
    }
  }

  /** A zero-weight item is never selected. */
  lemma ZeroWeightNeverPicked(w: seq<nat>, r: nat)
    requires r < Total(w)
    ensures w[Pick(w, r)] > 0
  {
    PrefixStep(w, Pick(w, r));
  }

  /** The integers of [lo, hi). */
  function Interval(lo: nat, hi: nat): (s: set<nat>)
    ensures forall r :: r in s <==> lo <= r < hi
    ensures |s| == if lo <= hi then hi - lo else 0
    decreases hi
  {
    if hi <= lo then {} else
      var below := Interval(lo, hi - 1);
      assert hi - 1 !in below;
      below + {hi - 1}
  }

  /** The points of [0, total) that select item i. */
  function Winners(w: seq<nat>, i: nat): set<nat> {
    set r | r in Interval(0, Total(w)) && Pick(w, r) == i
  }

  /**
   * Exactly w[i] of the `Total(w)` equally likely points select item i:
   * an item's chance is its weight over the total.
   */
  lemma PickCount(w: seq<nat>, i: nat)
    requires i < |w|
    ensures |Winners(w, i)| == w[i]
  {
    PrefixStep(w, i);
    PrefixMonotone(w, i + 1, |w|);
    PrefixAll(w);
    var range := Interval(Prefix(w, i), Prefix(w, i + 1));
    forall r: nat ensures r in Winners(w, i) <==> r in range {
      if r < Total(w) {
        PickIsWinner(w, i, r);
      }
    }
    assert Winners(w, i) == range;
  }

  /**
   * The library routine itself: `cum_weights = list(accumulate(weights))`,
   * then `bisect(cum_weights, x, 0, n - 1)`. It selects the same item as
   * `Pick`.
   */
  method Choices(weights: seq<nat>, x: nat) returns (i: nat)
    requires x < Total(weights)
    ensures i < |weights| && Wins(weights, i, x)
    ensures i == Pick(weights, x)
  {
    var n := |weights|;
    var cum: seq<nat> := [];
    var acc: nat := 0;
    while |cum| < n
      invariant |cum| <= n
      invariant acc == Prefix(weights, |cum|)
      invariant forall m | 0 <= m < |cum| :: cum[m] == Prefix(weights, m + 1)
    {
      PrefixStep(weights, |cum|);
      acc := acc + weights[|cum|];
      cum := cum + [acc];
    }
    PrefixAll(weights);
    forall a, b | 0 <= a <= b < n ensures cum[a] <= cum[b] {
      PrefixMonotone(weights, a + 1, b + 1);
    }
    var lo, hi := 0, n - 1;
    while lo < hi
      invariant 0 <= lo <= hi <= n - 1
      invariant forall m | 0 <= m < lo :: cum[m] <= x
      invariant forall m | hi <= m < n :: x < cum[m]
    {
      var mid := (lo + hi) / 2;
      if x < cum[mid] {
        hi := mid;
      } else {
        lo := mid + 1;
      }
    }
    i := lo;
    assert x < cum[i] == Prefix(weights, i + 1);
    if i > 0 {
      assert cum[i - 1] <= x;
    }
    PickIsWinner(weights, i, x);
  }
}

=== FILE: serializers.dfy ===
/**
 * The writable serializers: holdings create (increment) and update
 * (overwrite), and gacha create/update, which store the rate table and
 * (re)write the character pool row by row. The gacha writes run without a
 * transaction, so rows written before a failing pool entry stay written.
 */
module Serializers {
  import opened Wrappers
  import opened Models
  import opened Holdings

  // ----- UserCharacterSerializer -----

  datatype HoldingError =
    | NoCharacterId      // `validated_data.pop('character_id')` raises KeyError
    | CharacterNotFound  // ValidationError: no character has that id

  /**
   * `UserCharacterSerializer.create`: `quantity` copies (default 1) of the
   * character for the requesting user, added to an existing row or put in a
   * new one. Returns the table and the row written.
   */
  function CreateHolding(catalog: map<int, Character>, rows: seq<HoldingRow>, user: int,
                         characterId: Option<int>, quantity: Option<nat>): (r: Result<(seq<HoldingRow>, HoldingRow), HoldingError>)
    ensures characterId.None? ==> r == Err(NoCharacterId)
    ensures characterId.Some? && characterId.value !in catalog ==> r == Err(CharacterNotFound)
    ensures r.Ok? ==> var after, row := r.value.0, r.value.1;
      && characterId.Some? && characterId.value in catalog
      && row.user == user && row.character == characterId.value
      && row.quantity == Quantity(after, user, row.character) == Quantity(rows, user, row.character) + quantity.GetOr(DefaultQuantity)
      && (!HasHolding(rows, user, row.character) ==> after == rows + [row])
      && (forall u, c | u != user || c != row.character :: Quantity(after, u, c) == Quantity(rows, u, c))
      && (UniqueHoldings(rows) ==> UniqueHoldings(after))
  {
    match characterId
    case None => Err(NoCharacterId)
    case Some(id) =>
      if id !in catalog then Err(CharacterNotFound)
      else
        var q := quantity.GetOr(DefaultQuantity);
        var after := AddCopies(rows, user, id, q);
        Ok((after, HoldingRow(user, id, Quantity(after, user, id))))
  }

  /**
   * `UserCharacterSerializer.update` on the row at `index`: the quantity
   * becomes the supplied one, or stays; nothing else in the table changes.
   */
  function UpdateHolding(rows: seq<HoldingRow>, index: nat, quantity: Option<nat>): (r: seq<HoldingRow>)
    requires index < |rows|
    ensures |r| == |rows|
    ensures SameHoldingKey(r[index], rows[index])
    ensures quantity.Some? ==> r[index].quantity == quantity.value
    ensures quantity.None? ==> r == rows
    ensures forall j | 0 <= j < |rows| && j != index :: r[j] == rows[j]
    ensures UniqueHoldings(rows) ==> UniqueHoldings(r)
  {
    rows[index := rows[index].(quantity := quantity.GetOr(rows[index].quantity))]
  }

  /** Updating twice with the same payload is the same as updating once. */
  lemma UpdateHoldingIdempotent(rows: seq<HoldingRow>, index: nat, quantity: Option<nat>)
    requires index < |rows|
    ensures UpdateHolding(UpdateHolding(rows, index, quantity), index, quantity) == UpdateHolding(rows, index, quantity)
  {
  }

  // ----- GachaSerializer -----

  /** One submitted pool entry; `is_pickup` may be omitted. */
  datatype PoolInput = PoolInput(characterId: Option<int>, isPickup: Option<bool>)

  /** Validated data for a create. */
  datatype GachaInput = GachaInput(
    name: string,
    description: string,
    startDate: Option<int>,
    endDate: Option<int>,
    rarityRates: Option<seq<RateItem>>,
    characterPool: Option<seq<PoolInput>>)

  /** Validated data for an update: only the fields supplied (a date may be supplied as null). */
  datatype GachaPatch = GachaPatch(
    name: Option<string>,
    description: Option<string>,
    startDate: Option<Option<int>>,
    endDate: Option<Option<int>>,
    rarityRates: Option<seq<RateItem>>,
    characterPool: Option<seq<PoolInput>>)

  datatype Store = Store(characters: map<int, Character>, gachas: map<int, Gacha>, pool: seq<PoolRow>)

  datatype WriteError =
    | NameTaken                     // the gacha name is unique
    | MissingCharacterId            // ValidationError: a pool entry without character_id
    | UnknownCharacter(id: int)     // ValidationError: no character has that id
    | DuplicatePoolEntry(id: int)   // IntegrityError: (gacha, character) already in the pool

  datatype WriteResponse = WriteResponse(result: Result<Gacha, WriteError>, store: Store)

  /** The schema's constraints: unique keys, and every pool row pointing at an existing gacha and character. */
  predicate StoreInvariant(st: Store) {
    && WellFormedCatalog(st.characters)
    && WellFormedGachas(st.gachas)
    && UniquePoolRows(st.pool)
    && forall i | 0 <= i < |st.pool| :: st.pool[i].gacha in st.gachas && st.pool[i].character in st.characters
  }

  /** The pool rows of one gacha, in insertion order. */
  function PoolOf(rows: seq<PoolRow>, gacha: int): seq<PoolRow> {
    if |rows| == 0 then []
    else (if rows[0].gacha == gacha then [rows[0]] else []) + PoolOf(rows[1..], gacha)
  }

  /** A gacha's pool holds exactly the rows of that gacha. */
  lemma {:induction false} PoolOfMembers(rows: seq<PoolRow>, gacha: int)
    ensures forall x :: x in PoolOf(rows, gacha) <==> x in rows && x.gacha == gacha
  {
    if |rows| > 0 {
      PoolOfMembers(rows[1..], gacha);
      assert rows == [rows[0]] + rows[1..];
    }
  }

  lemma {:induction false} PoolOfAppend(a: seq<PoolRow>, b: seq<PoolRow>, gacha: int)
    ensures PoolOf(a + b, gacha) == PoolOf(a, gacha) + PoolOf(b, gacha)
  {
    if |a| > 0 {
      assert (a + b)[1..] == a[1..] + b;
      PoolOfAppend(a[1..], b, gacha);
    } else {
      assert a + b == b;
    }
  }

  lemma {:induction false} PoolOfAll(rows: seq<PoolRow>, gacha: int)
    requires forall i | 0 <= i < |rows| :: rows[i].gacha == gacha
    ensures PoolOf(rows, gacha) == rows
  {
    if |rows| > 0 {
      PoolOfAll(rows[1..], gacha);
      assert rows == [rows[0]] + rows[1..];
    }
  }

  lemma {:induction false} PoolOfNone(rows: seq<PoolRow>, gacha: int)
    requires forall i | 0 <= i < |rows| :: rows[i].gacha != gacha
    ensures PoolOf(rows, gacha) == []
  {
    if |rows| > 0 {
      PoolOfNone(rows[1..], gacha);
    }
  }

  /** The row an entry becomes once its character id is known; `is_pickup` defaults to false. */
  function RowFor(gacha: int, item: PoolInput): PoolRow {
    PoolRow(gacha, item.characterId.GetOr(0), item.isPickup.GetOr(false))
  }

  /** The rows of the first `k` entries. */
  function Written(gacha: int, items: seq<PoolInput>, k: nat): (r: seq<PoolRow>)
    requires k <= |items|
    ensures |r| == k && forall i | 0 <= i < k :: r[i] == RowFor(gacha, items[i])
  {
    seq(k, i requires 0 <= i < k => RowFor(gacha, items[i]))
  }

  /** Why an entry cannot be written next to `rows`, if it cannot. */
  function EntryError(characters: map<int, Character>, rows: seq<PoolRow>, gacha: int, item: PoolInput): Option<WriteError> {
    match item.characterId
    case None => Some(MissingCharacterId)
    case Some(id) =>
      if id !in characters then Some(UnknownCharacter(id))
      else if exists j | 0 <= j < |rows| :: SamePoolKey(rows[j], PoolRow(gacha, id, false)) then Some(DuplicatePoolEntry(id))
      else None
  }

  /**
   * The entry loop: each entry is checked and written in turn; the first
   * bad entry stops the loop and leaves the rows written before it.
   * Returns the table and the error, if any.
   */
  function WriteEntries(characters: map<int, Character>, rows: seq<PoolRow>, gacha: int, items: seq<PoolInput>): (r: (seq<PoolRow>, Option<WriteError>))
    ensures |rows| <= |r.0| <= |rows| + |items|
    ensures r.1.None? <==> |r.0| == |rows| + |items|
    decreases |items|
  {
    if |items| == 0 then (rows, None)
    else match EntryError(characters, rows, gacha, items[0])
      case Some(e) => (rows, Some(e))
      case None => WriteEntries(characters, rows + [RowFor(gacha, items[0])], gacha, items[1..])
  }

  /** The loop appends the rows of a prefix of the entries, in entry order, and touches nothing else. */
  lemma {:induction false} WriteEntriesWritten(characters: map<int, Character>, rows: seq<PoolRow>, gacha: int, items: seq<PoolInput>)
    ensures var r := WriteEntries(characters, rows, gacha, items);
      r.0 == rows + Written(gacha, items, |r.0| - |rows|)
    decreases |items|
  {
    var r := WriteEntries(characters, rows, gacha, items);
    if |items| > 0 && EntryError(characters, rows, gacha, items[0]).None? {
      var row := RowFor(gacha, items[0]);
      WriteEntriesWritten(characters, rows + [row], gacha, items[1..]);
      assert r == WriteEntries(characters, rows + [row], gacha, items[1..]);
      WrittenAfter(rows, gacha, items, |r.0| - |rows| - 1);
    } else {
      assert r.0 == rows;
      assert rows == rows + Written(gacha, items, 0);
    }
  }

  /** The first `k + 1` rows are the first entry's row followed by the next `k`. */
  lemma WrittenCons(gacha: int, items: seq<PoolInput>, k: nat)
    requires 0 < |items| && k < |items|
    ensures Written(gacha, items, k + 1) == [RowFor(gacha, items[0])] + Written(gacha, items[1..], k)
  {
  }

  /** Writing the first entry's row, then `k` more, is writing `k + 1` rows. */
  lemma WrittenAfter(rows: seq<PoolRow>, gacha: int, items: seq<PoolInput>, k: nat)
    requires 0 < |items| && k < |items|
    ensures (rows + [RowFor(gacha, items[0])]) + Written(gacha, items[1..], k) == rows + Written(gacha, items, k + 1)
  {
    WrittenCons(gacha, items, k);
    assert (rows + [RowFor(gacha, items[0])]) + Written(gacha, items[1..], k) == rows + ([RowFor(gacha, items[0])] + Written(gacha, items[1..], k));
  }

  /** Every entry the loop writes names an existing character. */
  lemma {:induction false} WriteEntriesChecked(characters: map<int, Character>, rows: seq<PoolRow>, gacha: int, items: seq<PoolInput>)
    ensures var r := WriteEntries(characters, rows, gacha, items);
      forall i | 0 <= i < |r.0| - |rows| :: items[i].characterId.Some? && items[i].characterId.value in characters
    decreases |items|
  {
    if |items| > 0 && EntryError(characters, rows, gacha, items[0]).None? {
      var row := RowFor(gacha, items[0]);
      WriteEntriesChecked(characters, rows + [row], gacha, items[1..]);
      var rest := WriteEntries(characters, rows + [row], gacha, items[1..]);
      assert WriteEntries(characters, rows, gacha, items) == rest;
      forall i | 1 <= i < |rest.0| - |rows| ensures items[i] == items[1..][i - 1] {
      }
    }
  }

  /** The rows the loop writes belong to the gacha and to existing characters. */
  lemma WriteEntriesTargets(characters: map<int, Character>, rows: seq<PoolRow>, gacha: int, items: seq<PoolInput>)
    ensures var r := WriteEntries(characters, rows, gacha, items);
      forall i | |rows| <= i < |r.0| :: r.0[i].gacha == gacha && r.0[i].character in characters
  {
    var r := WriteEntries(characters, rows, gacha, items);
    WriteEntriesChecked(characters, rows, gacha, items);
    WriteEntriesWritten(characters, rows, gacha, items);
    forall i | |rows| <= i < |r.0| ensures r.0[i].gacha == gacha && r.0[i].character in characters {
      assert r.0[i] == Written(gacha, items, |r.0| - |rows|)[i - |rows|];
    }
  }

  /** The loop never writes a second row for a (gacha, character) pair. */
  lemma {:induction false} WriteEntriesUnique(characters: map<int, Character>, rows: seq<PoolRow>, gacha: int, items: seq<PoolInput>)
    ensures UniquePoolRows(rows) ==> UniquePoolRows(WriteEntries(characters, rows, gacha, items).0)
    decreases |items|
  {
    if UniquePoolRows(rows) && |items| > 0 && EntryError(characters, rows, gacha, items[0]).None? {
      var row := RowFor(gacha, items[0]);
      var rows' := rows + [row];
      assert forall j | 0 <= j < |rows| :: !SamePoolKey(rows[j], row) by {
        assert !exists j | 0 <= j < |rows| :: SamePoolKey(rows[j], PoolRow(gacha, row.character, false));
      }
      forall i, j | 0 <= i < j < |rows'| ensures !SamePoolKey(rows'[i], rows'[j]) {
        if j == |rows| {
          assert rows'[i] == rows[i] && rows'[j] == row;
        } else {
          assert rows'[i] == rows[i] && rows'[j] == rows[j];
        }
      }
      WriteEntriesUnique(characters, rows', gacha, items[1..]);
      assert WriteEntries(characters, rows, gacha, items) == WriteEntries(characters, rows', gacha, items[1..]);
    }
  }

  /**
   * The loop stops at the first bad entry: the error reported is that
   * entry's, judged against the rows written before it (a missing id, an
   * unknown character, or a character already in the pool).
   */
  lemma {:induction false} WriteEntriesFirstError(characters: map<int, Character>, rows: seq<PoolRow>, gacha: int, items: seq<PoolInput>)
    ensures var r := WriteEntries(characters, rows, gacha, items);
      r.1.Some? ==> |rows| <= |r.0| < |rows| + |items| && r.1 == EntryError(characters, r.0, gacha, items[|r.0| - |rows|])
    decreases |items|
  {
    if |items| > 0 && EntryError(characters, rows, gacha, items[0]).None? {
      var row := RowFor(gacha, items[0]);
      WriteEntriesFirstError(characters, rows + [row], gacha, items[1..]);
      var rest := WriteEntries(characters, rows + [row], gacha, items[1..]);
      assert WriteEntries(characters, rows, gacha, items) == rest;
      if rest.1.Some? {
        assert items[1..][|rest.0| - |rows + [row]|] == items[|rest.0| - |rows|];
      }
    }
  }

  /** After a complete entry loop the gacha's pool is exactly the submitted entries, in order. */
  lemma WriteEntriesComplete(characters: map<int, Character>, rows: seq<PoolRow>, gacha: int, items: seq<PoolInput>)
    ensures (forall i | 0 <= i < |rows| :: rows[i].gacha != gacha) && WriteEntries(characters, rows, gacha, items).1.None? ==>
      && (forall i | 0 <= i < |items| :: items[i].characterId.Some?)
      && PoolOf(WriteEntries(characters, rows, gacha, items).0, gacha)
           == Written(gacha, items, |items|)
      && (forall g | g != gacha :: PoolOf(WriteEntries(characters, rows, gacha, items).0, g) == PoolOf(rows, g))
  {
    if (forall i | 0 <= i < |rows| :: rows[i].gacha != gacha) && WriteEntries(characters, rows, gacha, items).1.None? {
      WriteEntriesCompleteCase(characters, rows, gacha, items);
    }
  }

  lemma WriteEntriesCompleteCase(characters: map<int, Character>, rows: seq<PoolRow>, gacha: int, items: seq<PoolInput>)
    requires forall i | 0 <= i < |rows| :: rows[i].gacha != gacha
    requires WriteEntries(characters, rows, gacha, items).1.None?
    ensures forall i | 0 <= i < |items| :: items[i].characterId.Some?
    ensures PoolOf(WriteEntries(characters, rows, gacha, items).0, gacha)
      == Written(gacha, items, |items|)
    ensures forall g | g != gacha :: PoolOf(WriteEntries(characters, rows, gacha, items).0, g) == PoolOf(rows, g)
  {
    WriteEntriesChecked(characters, rows, gacha, items);
    WriteEntriesWritten(characters, rows, gacha, items);
    PoolOfFresh(rows, Written(gacha, items, |items|), gacha);
  }

  /** Rows of a gacha appended after rows of other gachas form its whole pool and leave the others' alone. */
  lemma PoolOfFresh(rows: seq<PoolRow>, written: seq<PoolRow>, gacha: int)
    requires forall i | 0 <= i < |rows| :: rows[i].gacha != gacha
    requires forall i | 0 <= i < |written| :: written[i].gacha == gacha
    ensures PoolOf(rows + written, gacha) == written
    ensures forall g | g != gacha :: PoolOf(rows + written, g) == PoolOf(rows, g)
  {
    PoolOfAppend(rows, written, gacha);
    PoolOfNone(rows, gacha);
    PoolOfAll(written, gacha);
    forall g | g != gacha ensures PoolOf(rows + written, g) == PoolOf(rows, g) {
      PoolOfAppend(rows, written, g);
      PoolOfNone(written, g);
    }
  }

  predicate NameInUse(gachas: map<int, Gacha>, name: string, except: Option<int>) {
    exists id | id in gachas :: gachas[id].name == name && Some(id) != except
  }

  /** A name no gacha uses is the name of no stored gacha. */
  lemma NameFree(gachas: map<int, Gacha>, name: string)
    requires !NameInUse(gachas, name, None)
    ensures forall id | id in gachas :: gachas[id].name != name
  {
  }

  /**
   * `GachaSerializer.create` with the database's fresh id `newId`: the
   * gacha is stored with its rate table (an empty list when omitted), then
   * one pool row per submitted entry.
   */
  function CreateGacha(st: Store, newId: int, input: GachaInput): (resp: WriteResponse)
    requires newId !in st.gachas
    ensures StoreInvariant(st) ==> StoreInvariant(resp.store)
    ensures NameInUse(st.gachas, input.name, None) ==> resp == WriteResponse(Err(NameTaken), st)
    ensures resp.result.Ok? ==> var g := resp.result.value;
      && g.id == newId && g.name == input.name && g.description == input.description
      && g.startDate == input.startDate && g.endDate == input.endDate
      && g.rarityRates == input.rarityRates.GetOr([])
      && resp.store.gachas == st.gachas[newId := g]
      && resp.store.characters == st.characters
    ensures StoreInvariant(st) && resp.result.Ok? ==> var items := input.characterPool.GetOr([]);
      && (forall i | 0 <= i < |items| :: items[i].characterId.Some?)
      && PoolOf(resp.store.pool, newId) == Written(newId, items, |items|)
      && (forall g | g != newId :: PoolOf(resp.store.pool, g) == PoolOf(st.pool, g))
  {
    if NameInUse(st.gachas, input.name, None) then WriteResponse(Err(NameTaken), st)
    else
      var g := Gacha(newId, input.name, input.description, input.startDate, input.endDate, input.rarityRates.GetOr([]));
      var gachas := st.gachas[newId := g];
      var (rows, err) := WriteEntries(st.characters, st.pool, newId, input.characterPool.GetOr([]));
      CreateKeepsInvariant(st, g, input.characterPool.GetOr([]));
      WriteEntriesComplete(st.characters, st.pool, newId, input.characterPool.GetOr([]));
      WriteResponse(if err.None? then Ok(g) else Err(err.value), Store(st.characters, gachas, rows))
  }

  /** Storing a gacha under a fresh id and a free name, then its pool rows, keeps the schema's constraints. */
  lemma CreateKeepsInvariant(st: Store, g: Gacha, items: seq<PoolInput>)
    requires g.id !in st.gachas && !NameInUse(st.gachas, g.name, None)
    ensures StoreInvariant(st) ==>
      StoreInvariant(Store(st.characters, st.gachas[g.id := g], WriteEntries(st.characters, st.pool, g.id, items).0))
  {
    if StoreInvariant(st) {
      var gachas := st.gachas[g.id := g];
      var rows := WriteEntries(st.characters, st.pool, g.id, items).0;
      WriteEntriesWritten(st.characters, st.pool, g.id, items);
      WriteEntriesTargets(st.characters, st.pool, g.id, items);
      WriteEntriesUnique(st.characters, st.pool, g.id, items);
      NameFree(st.gachas, g.name);
      forall i | 0 <= i < |rows| ensures rows[i].gacha in gachas && rows[i].character in st.characters {
        if i < |st.pool| {
          assert rows[i] == st.pool[i];
        }
      }
    }
  }

  /**
   * `GachaSerializer.update` of gacha `id`: supplied fields replace the
   * stored ones, the rate table is kept when omitted, and the pool is
   * deleted and rewritten from the submitted entries (an omitted pool
   * leaves it empty).
   */
  function UpdateGacha(st: Store, id: int, patch: GachaPatch): (resp: WriteResponse)
    requires id in st.gachas
    ensures StoreInvariant(st) ==> StoreInvariant(resp.store)
    ensures patch.name.Some? && NameInUse(st.gachas, patch.name.value, Some(id)) ==> resp == WriteResponse(Err(NameTaken), st)
    ensures resp.result.Ok? ==> var g := resp.result.value;
      && g.id == id
      && g.name == patch.name.GetOr(st.gachas[id].name)
      && g.description == patch.description.GetOr(st.gachas[id].description)
      && g.startDate == patch.startDate.GetOr(st.gachas[id].startDate)
      && g.endDate == patch.endDate.GetOr(st.gachas[id].endDate)
      && g.rarityRates == patch.rarityRates.GetOr(st.gachas[id].rarityRates)
      && resp.store.gachas == st.gachas[id := g]
      && resp.store.characters == st.characters
    ensures resp.result.Ok? ==> var items := patch.characterPool.GetOr([]);
      && (forall i | 0 <= i < |items| :: items[i].characterId.Some?)
      && PoolOf(resp.store.pool, id) == Written(id, items, |items|)
      && (forall g | g != id :: PoolOf(resp.store.pool, g) == PoolOf(st.pool, g))
  {
    if patch.name.Some? && NameInUse(st.gachas, patch.name.value, Some(id)) then WriteResponse(Err(NameTaken), st)
    else
      var g := Patched(id, st.gachas[id], patch);
      var gachas := st.gachas[id := g];
      var (rows, err) := ReplacePool(st.characters, st.pool, id, patch.characterPool.GetOr([]));
      WriteResponse(if err.None? then Ok(g) else Err(err.value), Store(st.characters, gachas, rows))
  }

  /** The stored gacha with the supplied fields replaced and the omitted ones kept. */
  function Patched(id: int, prev: Gacha, patch: GachaPatch): (g: Gacha)
    ensures g.id == id
    ensures patch.name.None? ==> g.name == prev.name
    ensures patch.name.Some? ==> g.name == patch.name.value
    ensures patch.description.None? ==> g.description == prev.description
    ensures patch.description.Some? ==> g.description == patch.description.value
    ensures patch.startDate.None? ==> g.startDate == prev.startDate
    ensures patch.startDate.Some? ==> g.startDate == patch.startDate.value
    ensures patch.endDate.None? ==> g.endDate == prev.endDate
    ensures patch.endDate.Some? ==> g.endDate == patch.endDate.value
    ensures patch.rarityRates.None? ==> g.rarityRates == prev.rarityRates
    ensures patch.rarityRates.Some? ==> g.rarityRates == patch.rarityRates.value
  {
    Gacha(id,
      patch.name.GetOr(prev.name),
      patch.description.GetOr(prev.description),
      patch.startDate.GetOr(prev.startDate),
      patch.endDate.GetOr(prev.endDate),
      patch.rarityRates.GetOr(prev.rarityRates))
  }

  /** Deletes the gacha's pool rows, then runs the entry loop for it. */
  function ReplacePool(characters: map<int, Character>, rows: seq<PoolRow>, gacha: int, items: seq<PoolInput>): (r: (seq<PoolRow>, Option<WriteError>))
    ensures UniquePoolRows(rows) ==> UniquePoolRows(r.0)
    ensures forall x | x in r.0 :: (x in rows && x.gacha != gacha) || (x.gacha == gacha && x.character in characters)
    ensures forall g | g != gacha :: PoolOf(r.0, g) == PoolOf(rows, g)
    ensures r.1.None? ==> (forall i | 0 <= i < |items| :: items[i].characterId.Some?)
    ensures r.1.None? ==> PoolOf(r.0, gacha) == Written(gacha, items, |items|)
  {
    var kept := OtherPools(rows, gacha);
    WriteEntriesUnique(characters, kept, gacha, items);
    WriteEntriesComplete(characters, kept, gacha, items);
    ReplacePoolRows(characters, rows, gacha, items);
    ReplacePoolOthers(characters, rows, gacha, items);
    WriteEntries(characters, kept, gacha, items)
  }

  /** After the delete and the loop, a row is a kept row of another gacha or a new row of this one. */
  lemma ReplacePoolRows(characters: map<int, Character>, rows: seq<PoolRow>, gacha: int, items: seq<PoolInput>)
    ensures forall x | x in WriteEntries(characters, OtherPools(rows, gacha), gacha, items).0 ::
      (x in rows && x.gacha != gacha) || (x.gacha == gacha && x.character in characters)
  {
    var kept := OtherPools(rows, gacha);
    var r := WriteEntries(characters, kept, gacha, items);
    WriteEntriesWritten(characters, kept, gacha, items);
    WriteEntriesTargets(characters, kept, gacha, items);
    forall x | x in r.0 ensures (x in rows && x.gacha != gacha) || (x.gacha == gacha && x.character in characters) {
      var i :| 0 <= i < |r.0| && r.0[i] == x;
      if i < |kept| {
        assert x == kept[i];
      }
    }
  }

  /** After the delete and the loop, every other gacha's pool is as it was. */
  lemma ReplacePoolOthers(characters: map<int, Character>, rows: seq<PoolRow>, gacha: int, items: seq<PoolInput>)
    ensures forall g | g != gacha :: PoolOf(WriteEntries(characters, OtherPools(rows, gacha), gacha, items).0, g) == PoolOf(rows, g)
  {
    var kept := OtherPools(rows, gacha);
    var r := WriteEntries(characters, kept, gacha, items);
    WriteEntriesWritten(characters, kept, gacha, items);
    PoolOfFresh(kept, Written(gacha, items, |r.0| - |kept|), gacha);
    forall g | g != gacha ensures PoolOf(r.0, g) == PoolOf(rows, g) {
      OtherPoolsOf(rows, gacha, g);
    }
  }

  /** `GachaCharacterPool.objects.filter(gacha=...).delete()`: the rows of every other gacha. */
  function OtherPools(rows: seq<PoolRow>, gacha: int): (r: seq<PoolRow>)
    ensures forall i | 0 <= i < |r| :: r[i].gacha != gacha
    ensures forall x | x in r :: x in rows
    ensures UniquePoolRows(rows) ==> UniquePoolRows(r)
  {
    if |rows| == 0 then []
    else
      assert rows == [rows[0]] + rows[1..];
      var rest := OtherPools(rows[1..], gacha);
      if rows[0].gacha == gacha then rest
      else
        assert UniquePoolRows(rows) ==> forall j | 0 <= j < |rest| :: !SamePoolKey(rows[0], rest[j]) by {
          if UniquePoolRows(rows) {
            forall j | 0 <= j < |rest| ensures !SamePoolKey(rows[0], rest[j]) {
              assert rest[j] in rest;
              var m :| 0 <= m < |rows[1..]| && rows[1..][m] == rest[j];
              assert rows[m + 1] == rest[j];
            }
          }
        }
        [rows[0]] + rest
  }

  /** Deleting one gacha's pool leaves every other gacha's pool as it was. */
  lemma {:induction false} OtherPoolsOf(rows: seq<PoolRow>, gacha: int, g: int)
    requires g != gacha
    ensures PoolOf(OtherPools(rows, gacha), g) == PoolOf(rows, g)
  {
    if |rows| > 0 {
      OtherPoolsOf(rows[1..], gacha, g);
      var rest := OtherPools(rows[1..], gacha);
      if rows[0].gacha != gacha {
        assert ([rows[0]] + rest)[1..] == rest;
      }
    }
  }

  lemma {:induction false} OtherPoolsAppend(a: seq<PoolRow>, b: seq<PoolRow>, gacha: int)
    ensures OtherPools(a + b, gacha) == OtherPools(a, gacha) + OtherPools(b, gacha)
  {
    if |a| > 0 {
      assert (a + b)[0] == a[0] && (a + b)[1..] == a[1..] + b;
      OtherPoolsAppend(a[1..], b, gacha);
    } else {
      assert a + b == b;
    }
  }

  lemma {:induction false} OtherPoolsKeeps(rows: seq<PoolRow>, gacha: int)
    requires forall i | 0 <= i < |rows| :: rows[i].gacha != gacha
    ensures OtherPools(rows, gacha) == rows
  {
    if |rows| > 0 {
      OtherPoolsKeeps(rows[1..], gacha);
    }
  }

  lemma {:induction false} OtherPoolsDrops(rows: seq<PoolRow>, gacha: int)
    requires forall i | 0 <= i < |rows| :: rows[i].gacha == gacha
    ensures OtherPools(rows, gacha) == []
  {
    if |rows| > 0 {
      OtherPoolsDrops(rows[1..], gacha);
    }
  }

  /** Replacing a gacha's pool a second time with the same entries gives the same table. */
  lemma ReplacePoolIdempotent(characters: map<int, Character>, rows: seq<PoolRow>, gacha: int, items: seq<PoolInput>)
    requires ReplacePool(characters, rows, gacha, items).1.None?
    ensures ReplacePool(characters, ReplacePool(characters, rows, gacha, items).0, gacha, items) == ReplacePool(characters, rows, gacha, items)
  {
    var kept := OtherPools(rows, gacha);
    var w := WriteEntries(characters, kept, gacha, items);
    var k := |w.0| - |kept|;
    WriteEntriesWritten(characters, kept, gacha, items);
    OtherPoolsAppend(kept, Written(gacha, items, k), gacha);
    OtherPoolsKeeps(kept, gacha);
    OtherPoolsDrops(Written(gacha, items, k), gacha);
    assert OtherPools(w.0, gacha) == kept;
    assert ReplacePool(characters, rows, gacha, items) == w;
    assert ReplacePool(characters, w.0, gacha, items) == WriteEntries(characters, OtherPools(w.0, gacha), gacha, items);
  }

  /** Repeating a successful update with the same data changes nothing further. */
  lemma UpdateGachaIdempotent(st: Store, id: int, patch: GachaPatch)
    requires id in st.gachas
    requires UpdateGacha(st, id, patch).result.Ok?
    ensures UpdateGacha(UpdateGacha(st, id, patch).store, id, patch) == UpdateGacha(st, id, patch)
  {
    var items := patch.characterPool.GetOr([]);
    var g := Patched(id, st.gachas[id], patch);
    var pool := ReplacePool(st.characters, st.pool, id, items);
    var st' := Store(st.characters, st.gachas[id := g], pool.0);
    UpdateGachaOk(st, id, patch);
    ReplacePoolIdempotent(st.characters, st.pool, id, items);
    PatchedIdempotent(id, st.gachas[id], patch);
    if patch.name.Some? {
      NameInUseAfterPatch(st.gachas, id, g, patch.name.value);
    }
    assert st'.gachas[id := g] == st'.gachas;
    UpdateGachaUnfolded(st', id, patch);
  }

  /** A successful update is the patched gacha and the rewritten pool. */
  lemma UpdateGachaOk(st: Store, id: int, patch: GachaPatch)
    requires id in st.gachas
    requires UpdateGacha(st, id, patch).result.Ok?
    ensures var g := Patched(id, st.gachas[id], patch);
      var pool := ReplacePool(st.characters, st.pool, id, patch.characterPool.GetOr([]));
      && !(patch.name.Some? && NameInUse(st.gachas, patch.name.value, Some(id)))
      && pool.1.None?
      && UpdateGacha(st, id, patch) == WriteResponse(Ok(g), Store(st.characters, st.gachas[id := g], pool.0))
  {
  }

  /** An update whose name is free and whose pool is rewritten without error. */
  lemma UpdateGachaUnfolded(st: Store, id: int, patch: GachaPatch)
    requires id in st.gachas
    requires !(patch.name.Some? && NameInUse(st.gachas, patch.name.value, Some(id)))
    requires ReplacePool(st.characters, st.pool, id, patch.characterPool.GetOr([])).1.None?
    ensures UpdateGacha(st, id, patch) == WriteResponse(Ok(Patched(id, st.gachas[id], patch)),
      Store(st.characters, st.gachas[id := Patched(id, st.gachas[id], patch)],
            ReplacePool(st.characters, st.pool, id, patch.characterPool.GetOr([])).0))
  {
  }

  /** Patching twice with the same data is patching once. */
  lemma PatchedIdempotent(id: int, prev: Gacha, patch: GachaPatch)
    ensures Patched(id, Patched(id, prev, patch), patch) == Patched(id, prev, patch)
  {
  }

  /** Storing gacha `id` under its own key does not change which names other gachas use. */
  lemma NameInUseAfterPatch(gachas: map<int, Gacha>, id: int, g: Gacha, name: string)
    ensures NameInUse(gachas[id := g], name, Some(id)) == NameInUse(gachas, name, Some(id))
  {
    if NameInUse(gachas[id := g], name, Some(id)) {
      var j :| j in gachas[id := g] && gachas[id := g][j].name == name && Some(j) != Some(id);
      assert j in gachas && gachas[j].name == name;
    }
    if NameInUse(gachas, name, Some(id)) {
      var j :| j in gachas && gachas[j].name == name && Some(j) != Some(id);
      assert j in gachas[id := g] && gachas[id := g][j].name == name;
    }
  }
}

=== FILE: sorting.dfy ===
/**
 * Comparator-driven ordering, shared by the ORM's default orderings and the
 * front end's `Array.prototype.sort` calls. `le(a, b)` means "a may come
 * before b".
 */
module Sorting {

  ghost predicate Total<T(!new)>(le: (T, T) -> bool) {
    forall a, b :: le(a, b) || le(b, a)
  }

  ghost predicate Transitive<T(!new)>(le: (T, T) -> bool) {
    forall a, b, c :: le(a, b) && le(b, c) ==> le(a, c)
  }

  /** A comparator a sort can honour: every pair comparable, consistently. */
  ghost predicate TotalPreorder<T(!new)>(le: (T, T) -> bool) {
    Total(le) && Transitive(le)
  }

  /** Two distinct values never tie: the order fixes one arrangement. */
  ghost predicate Antisymmetric<T(!new)>(le: (T, T) -> bool) {
    forall a, b :: le(a, b) && le(b, a) ==> a == b
  }

  predicate SortedBy<T>(le: (T, T) -> bool, s: seq<T>) {
    forall i, j | 0 <= i < j < |s| :: le(s[i], s[j])
  }

  /** The first position whose element `x` may precede, or the end. */
  function InsertionPoint<T>(le: (T, T) -> bool, x: T, s: seq<T>): (p: nat)
    ensures p <= |s|
    ensures forall i | 0 <= i < p :: !le(x, s[i])
    ensures p < |s| ==> le(x, s[p])
  {
    if |s| == 0 || le(x, s[0]) then 0 else 1 + InsertionPoint(le, x, s[1..])
  }

  /** Places `x` before the first element it may precede. */
  function Insert<T(!new)>(le: (T, T) -> bool, x: T, s: seq<T>): (r: seq<T>)
    ensures multiset(r) == multiset(s) + multiset{x}
    ensures TotalPreorder(le) && SortedBy(le, s) ==> SortedBy(le, r)
  {
    var p := InsertionPoint(le, x, s);
    var r := s[..p] + [x] + s[p..];
    assert s == s[..p] + s[p..];
    assert TotalPreorder(le) && SortedBy(le, s) ==> SortedBy(le, r) by {
      if TotalPreorder(le) && SortedBy(le, s) {
        InsertSorted(le, x, s, p);
      }
    }
    r
  }

  lemma InsertSorted<T(!new)>(le: (T, T) -> bool, x: T, s: seq<T>, p: nat)
    requires TotalPreorder(le) && SortedBy(le, s)
    requires p <= |s|
    requires forall i | 0 <= i < p :: !le(x, s[i])
    requires p < |s| ==> le(x, s[p])
    ensures SortedBy(le, s[..p] + [x] + s[p..])
  {
    var r := s[..p] + [x] + s[p..];
    assert forall i | 0 <= i < p :: le(s[i], x);
    assert forall j | p <= j < |s| :: le(x, s[j]) by {
      forall j | p <= j < |s| ensures le(x, s[j]) {
        if j > p { assert le(s[p], s[j]); }
      }
    }
    forall i, j | 0 <= i < j < |r| ensures le(r[i], r[j]) {
      if j < p {
        assert r[i] == s[i] && r[j] == s[j];
      } else if j == p {
        assert r[i] == s[i] && r[j] == x;
      } else if i < p {
        assert r[i] == s[i] && r[j] == s[j - 1];
        assert le(s[i], s[j - 1]);
      } else if i == p {
        assert r[i] == x && r[j] == s[j - 1];
      } else {
        assert r[i] == s[i - 1] && r[j] == s[j - 1];
      }
    }
  }

  /** Insertion sort: a sorted permutation of `s`. */
  function Sort<T(!new)>(le: (T, T) -> bool, s: seq<T>): (r: seq<T>)
    ensures multiset(r) == multiset(s)
    ensures TotalPreorder(le) ==> SortedBy(le, r)
  {
    if |s| == 0 then []
    else
      assert s == [s[0]] + s[1..];
      Insert(le, s[0], Sort(le, s[1..]))
  }
}

=== FILE: views.dfy ===
/**
 * Who may call which endpoint, and what the per-user list endpoints
 * return. Authentication itself is not modelled: a request arrives either
 * anonymous or as a known user, with or without the staff flag.
 */
module Access {
  import opened Models
  import opened Sorting

  datatype Requester = Anonymous | Member(id: int, isStaff: bool)

  /** The viewset actions; `PullAction` is the `pull` route of a gacha. */
  datatype Action = List | Retrieve | Create | Update | PartialUpdate | Destroy | PullAction

  datatype Permission = AllowAny | IsAuthenticated | IsAdminUser

  predicate IsRead(a: Action) {
    a == List || a == Retrieve
  }

  predicate IsWrite(a: Action) {
    a == Create || a == Update || a == PartialUpdate || a == Destroy
  }

  /** The framework's permission classes: admin means an authenticated staff user. */
  predicate Grants(p: Permission, req: Requester) {
    match p
    case AllowAny => true
    case IsAuthenticated => req.Member?
    case IsAdminUser => req.Member? && req.isStaff
  }

  /** A staff user passes every permission an ordinary user passes, who passes every one an anonymous caller passes. */
  lemma GrantsMonotone(p: Permission, id: int, staffId: int)
    ensures Grants(p, Anonymous) ==> Grants(p, Member(id, false))
    ensures Grants(p, Member(id, false)) ==> Grants(p, Member(staffId, true))
  {
  }

  /** `CharacterViewSet.get_permissions`: anyone reads the catalog, only staff change it. */
  function CharacterPermission(a: Action): (p: Permission)
    ensures forall req :: Grants(p, req) <==> IsRead(a) || (req.Member? && req.isStaff)
  {
    if IsRead(a) then AllowAny else IsAdminUser
  }

  /**
   * `GachaViewSet.get_permissions`: anyone reads the gachas, any signed-in
   * user pulls, only staff create, change or delete them.
   */
  function GachaPermission(a: Action): (p: Permission)
    ensures forall req :: Grants(p, req) <==> IsRead(a) || (a == PullAction && req.Member?) || (req.Member? && req.isStaff)
    ensures a == PullAction ==> !Grants(p, Anonymous)
  {
    if IsRead(a) then AllowAny
    else if a == PullAction then IsAuthenticated
    else IsAdminUser
  }

  // ----- per-user querysets -----

  /**
   * `filter(user=...)`: the rows of one user, in their stored order, each
   * as often as it is stored. `owner` reads a row's user.
   */
  function Own<T(==,!new)>(rows: seq<T>, owner: T -> int, user: int): (r: seq<T>)
    ensures forall x :: multiset(r)[x] == if owner(x) == user then multiset(rows)[x] else 0
  {
    if |rows| == 0 then []
    else
      assert rows == [rows[0]] + rows[1..];
      (if owner(rows[0]) == user then [rows[0]] else []) + Own(rows[1..], owner, user)
  }

  function RecordUser(h: HistoryRecord): int {
    h.user
  }

  function HoldingUser(h: HoldingRow): int {
    h.user
  }

  /** `order_by('-pulled_at')`: newest first. */
  predicate NewestFirst(a: HistoryRecord, b: HistoryRecord) {
    a.pulledAt >= b.pulledAt
  }

  /** `GachaHistoryViewSet.get_queryset`: the caller's own records, newest first; nothing for an anonymous caller. */
  function HistoryQuery(req: Requester, history: seq<HistoryRecord>): (r: seq<HistoryRecord>)
    ensures req.Anonymous? ==> r == []
    ensures req.Member? ==> forall x :: multiset(r)[x] == if x.user == req.id then multiset(history)[x] else 0
    ensures forall i, j | 0 <= i < j < |r| :: r[i].pulledAt >= r[j].pulledAt
  {
    match req
    case Anonymous => []
    case Member(id, _) =>
      var r := Sort(NewestFirst, Own(history, RecordUser, id));
      assert TotalPreorder(NewestFirst);
      r
  }

  /** Every listed record belongs to the caller. */
  lemma HistoryQueryOwn(req: Requester, history: seq<HistoryRecord>)
    ensures forall i | 0 <= i < |HistoryQuery(req, history)| :: HistoryQuery(req, history)[i].user == req.id
  {
    var r := HistoryQuery(req, history);
    forall i | 0 <= i < |r| ensures r[i].user == req.id {
      assert multiset(r)[r[i]] > 0;
    }
  }

  /**
   * The character a holdings row points at. The foreign key guarantees it
   * exists; the placeholder only keeps the comparator total.
   */
  function CharacterOf(catalog: map<int, Character>, id: int): Character {
    if id in catalog then catalog[id] else Character(id, "", "", 1, Neutral, 0, 0, 0)
  }

  /** `order_by('-character__rarity', 'character__name')`. */
  function HoldingOrder(catalog: map<int, Character>): (le: (HoldingRow, HoldingRow) -> bool)
    ensures TotalPreorder(le)
    ensures forall a, b :: le(a, b) <==> CharacterLe(CharacterOf(catalog, a.character), CharacterOf(catalog, b.character))
  {
    var le := (a: HoldingRow, b: HoldingRow) => CharacterLe(CharacterOf(catalog, a.character), CharacterOf(catalog, b.character));
    CharacterOrder();
    le
  }

  /**
   * `UserCharacterViewSet.get_queryset`: the caller's own rows, rarest
   * character first, then by character name; nothing for an anonymous caller.
   */
  function HoldingsQuery(req: Requester, catalog: map<int, Character>, rows: seq<HoldingRow>): (r: seq<HoldingRow>)
    ensures req.Anonymous? ==> r == []
    ensures req.Member? ==> forall x :: multiset(r)[x] == if x.user == req.id then multiset(rows)[x] else 0
    ensures forall i, j | 0 <= i < j < |r| ::
      CharacterLe(CharacterOf(catalog, r[i].character), CharacterOf(catalog, r[j].character))
  {
    match req
    case Anonymous => []
    case Member(id, _) =>
      var le := HoldingOrder(catalog);
      var r := Sort(le, Own(rows, HoldingUser, id));
      assert SortedBy(le, r);
      r
  }

  /** Every listed holdings row is a row of the table, and the caller's. */
  lemma HoldingsQueryOwn(req: Requester, catalog: map<int, Character>, rows: seq<HoldingRow>)
    ensures forall i | 0 <= i < |HoldingsQuery(req, catalog, rows)| ::
      HoldingsQuery(req, catalog, rows)[i].user == req.id && HoldingsQuery(req, catalog, rows)[i] in rows
  {
    var r := HoldingsQuery(req, catalog, rows);
    forall i | 0 <= i < |r| ensures r[i].user == req.id && r[i] in rows {
      assert multiset(r)[r[i]] > 0;
    }
  }

  // ----- the history endpoint -----

  datatype HistoryReply =
    | Denied                          // the permission check fails
    | Listing(records: seq<HistoryRecord>)
    | Detail(record: HistoryRecord)
    | Status(code: int)               // 404, or 405 for the blocked writes

  const MethodNotAllowed := 405
  const NotFound := 404

  /**
   * `GachaHistoryViewSet`: signed-in users only; list and retrieve go
   * through the per-user queryset (a record is addressed by its position in
   * the table), and create, update, partial update and destroy answer 405.
   * The viewset has no pull route, so the router answers a pull 404 before
   * any permission check.
   */
  function HistoryEndpoint(req: Requester, action: Action, history: seq<HistoryRecord>, pk: nat): (reply: HistoryReply)
    ensures action == PullAction ==> reply == Status(NotFound)
    ensures reply == Denied <==> req.Anonymous? && action != PullAction
    ensures req.Member? && IsWrite(action) ==> reply == Status(MethodNotAllowed)
    ensures reply.Listing? ==> action == List && forall i | 0 <= i < |reply.records| :: reply.records[i].user == req.id
    ensures req.Member? && action == List ==> reply == Listing(HistoryQuery(req, history))
    ensures reply.Detail? ==> action == Retrieve && pk < |history| && reply.record == history[pk] && reply.record.user == req.id
    ensures req.Member? && action == Retrieve && pk < |history| && history[pk].user == req.id ==> reply == Detail(history[pk])
    ensures req.Member? && action == Retrieve && (pk >= |history| || history[pk].user != req.id) ==> reply == Status(NotFound)
  {
    if action == PullAction then Status(NotFound)
    else if !Grants(IsAuthenticated, req) then Denied
    else match action
      case List =>
        HistoryQueryOwn(req, history);
        Listing(HistoryQuery(req, history))
      case Retrieve =>
        if pk < |history| && history[pk].user == req.id then Detail(history[pk]) else Status(NotFound)
      case _ => Status(MethodNotAllowed)
  }

  /** The history endpoint never yields a reply that adds, changes or removes a record: writes are refused for everyone. */
  lemma HistoryIsAppendOnly(req: Requester, action: Action, history: seq<HistoryRecord>, pk: nat)
    requires IsWrite(action)
    ensures HistoryEndpoint(req, action, history, pk) in {Denied, Status(MethodNotAllowed)}
  {
  }
}

=== FILE: wrappers.dfy ===
/** Failure-carrying values shared by every module of the model. */
module Wrappers {

  /** A value that may be absent: a JSON key that was not sent, a nullable column. */
  datatype Option<+T> = None | Some(value: T) {

    /** The carried value, or `default` when absent (Python's `dict.get(key, default)`). */
    function GetOr(default: T): T {
      match this
      case Some(v) => v
      case None => default
    }
  }

  /** Either a value or the error that replaced it (an exception or an error response). */
  datatype Result<+R, +E> = Ok(value: R) | Err(error: E)
}
